=== FILE: README.md ===
# Ingest Optimizer: the hierarchical path filter

The Ingest Optimizer is a Streamlit page that slims down an uploaded XML or
JSON file before it is ingested elsewhere. It lists every *path* in the
document. A path is the slash-joined chain of tag names or object keys that
leads to a node, e.g. `record/title`.

The user can shrink the list in two ways:
- type comma-separated `fnmatch` wildcard patterns, which remove the paths they match from the choice;
- deselect paths in a multiselect.

Every path that is not selected, or that a wildcard matched, is *excluded*. The page
prunes a deep copy of the document, deleting each excluded node with its whole
subtree. The size preview and the download each prune their own deep copy, with
the same pass (`Documents.PruneDocument`).
Two panels show the document as a nested dictionary, in full and filtered by the selection.
The selection and the patterns can be saved as a `.filter.json` file and loaded again.

The model covers two versions of the page: `XML_03_final.py` and `XML_02.py`.
They share the path collection, the pruning passes and the full hierarchy view
line for line. In the path filter they differ in four places:
- `XML_03_final.py` also lists the root's own tag as a path.
- `XML_02.py` parses the wildcard text box only when it is non-empty
  (`if wildcard_input`, `XML_02.py:106`); an empty box gives no patterns either way.
- `XML_03_final.py` hands the stored selection to the multiselect as it stands,
  while `XML_02.py` first drops, from the `default` argument, the entries that are no longer options.
- Only `XML_03_final.py` has the filtered hierarchy panel.

Outside the path filter, only `XML_03_final.py` has the overview table (`XML_03_final.py:76-84`)
and the log download (`XML_03_final.py:273-293`), and only `XML_02.py` has the footer counts
(`XML_02.py:203-206`).

Rows below cite `XML_03_final.py` wherever the two files agree. For the shared code, the
corresponding lines of `XML_02.py` are: `collect_tags` 50-57, `collect_keys` 65-76, `calc_size`'s
`pr` 127-134 and 139-148, `prune` 169-176, `prune_any` 181-191, `xml_to_dict` 215-228.

Modules, bottom up:

- `Common`: `Option`, plus `Survivors`/`KeepMap`. These say once and for all which
  entries of a filtered sequence survive and that they keep their order.
- `Paths`: the two path spellings the scripts use: `f"{p}/{k}" if p else k`
  (`Extend`) and `'/'.join(names)` (`Join`). It also proves they agree when names are non-empty.
- `Glob`: the `*` / `?` / literal part of `fnmatch`.
- `Selection`: the wildcard text box (`split`, `strip`), `wild_excl`, `options`, `exclude`,
  and the order-keeping list restriction used for `options` and for the
  `XML_02.py` default.
- `JsonTree`: JSON values with ordered objects. It covers `collect_keys`,
  `pr`/`prune_any` and `json_to_dict_filtered`.
- `DictView`: the dictionary building of `xml_to_dict`. A repeated child tag turns its entry into a list.
- `XmlTree`: elements (tag, text, children). It covers `collect_tags`, `pr`/`prune`,
  `xml_to_dict` and `xml_to_dict_filtered`.
- `Documents`: the uploaded document (XML or JSON), pruning at the top level, and both hierarchy panels.
- `Session`: the left column. It covers the filter file, the session-state entries
  `wildcard_input` and `include`, the multiselect with its default, `exclude`,
  saving the filter and the download. The "Reset filter" button returns the
  session to `Session.Blank`.
- `Ingest03`, `Ingest02`: each script's own tag collection and multiselect default, with end-to-end theorems.

Paths start *below* the root (`XML_03_final.py:48`): in `<root><a>1</a><b>2</b></root>`
the root's children have the paths `a` and `b`. So `root/b` names nothing and
excluding it removes nothing, while excluding `b` removes `<b>`
(`Ingest03.SampleRootPathInert`, `Ingest03.SamplePaths`). In `XML_03_final.py` the root's
own tag is a path of the tag list as well, but pruning never tests the root itself.
So, unless a path below the root spells the root's tag, selecting or deselecting
that tag changes nothing (`Ingest03.RootTagInert`). In `<a><a/></a>` it does: the path
`a` also names the child, and excluding `a` removes it (`Ingest03.SampleRootTagShared`).

## Model

| member | source | states |
|---|---|---|
| Paths.JoinExtend | XML_03_final.py:239-246 | for non-empty names, `'/'.join(p + [t])` is the f-string extension of `'/'.join(p)` by `t`, so `prune` and `collect_tags` spell every path alike |
| Paths.ChainPathJoin | XML_03_final.py:239-246 | descending from the joined list `p` through a chain of names reaches the joined list `p + chain` |
| Glob.StarSplits | XML_03_final.py:110 | a leading `*` matches a name exactly when the rest of the pattern matches some suffix of it |
| Glob.LiteralMatchesItself | XML_03_final.py:110 | a pattern without `*`, `?` or `[` matches exactly the name it spells |
| Selection.Strip | XML_03_final.py:109 | the result is the input with whitespace cut from the two ends only, and it neither starts nor ends with whitespace |
| Selection.TrimLeftStops | XML_03_final.py:109 | the left trim stops at the first character that is not white space |
| Selection.StripKeepsCharacters | XML_03_final.py:109 | every character of the stripped text occurs in the input |
| Selection.VisibleNotSpace | XML_03_final.py:109 | no visible ASCII character counts as white space, so `strip` leaves such a character at either end in place |
| Selection.Split | XML_03_final.py:109 | `split(',')` yields at least one piece, no piece holds a comma, and re-joining the pieces with commas gives back the input |
| Selection.ParsePatterns | XML_03_final.py:109 | every parsed pattern is non-empty, trimmed and comma-free |
| Selection.PatternsRoundTrip | XML_03_final.py:109 | parsing the comma-joined list of clean patterns gives back exactly that list |
| Selection.SplitAppend | XML_03_final.py:109 | splitting two texts joined by a comma gives the pieces of the first followed by those of the second |
| Selection.ParseAppend | XML_03_final.py:109 | parsing two texts joined by a comma gives the patterns of the first followed by those of the second |
| Selection.ParseJoin | XML_03_final.py:94 | the text box filled from a filter file's entries parses to the patterns of each entry in turn, however the entries are written |
| Selection.SampleEntry | XML_03_final.py:94 | the filter entry `b` gives the one pattern `b` |
| Selection.SampleUntidyEntry | XML_03_final.py:109 | the entry ` b` (with a leading blank) reads as the one pattern `b` |
| Selection.WildExcl | XML_03_final.py:110 | the wildcard matches lie among the known tags, an empty pattern list excludes nothing, and `*` matches every tag |
| Selection.WildExclMonotone | XML_03_final.py:110 | adding patterns can only enlarge the wildcard matches |
| Selection.WildExclUnion | XML_03_final.py:110 | a list of patterns matches what any one of them matches |
| Selection.LiteralPatternExcludesItself | XML_03_final.py:110 | a pattern without `*`, `?` or `[` matches just the tag it names, if that tag exists |
| Selection.StarSlashExample | XML_03_final.py:110 | `*/x` over `a/x`, `b/x`, `a/y` matches `a/x` and `b/x` only |
| Selection.Options | XML_03_final.py:115 | the options are known tags not matched by a wildcard, and every known tag is an option or a wildcard match |
| Selection.Exclude | XML_03_final.py:121 | `exclude` holds only known tags, every wildcard match and every unselected tag, and never a selected tag the wildcards left alone |
| Selection.ExcludePartition | XML_03_final.py:115-121 | once the selection is drawn from the options, `exclude` is the known tags minus the selection, and the two split the known tags |
| Selection.Restrict | XML_02.py:114 | an entry is kept exactly when it is in the list and in the allowed set |
| Selection.RestrictKeepsAllowed | XML_02.py:113-114 | a stored selection made only of current options passes through unchanged |
| Selection.RestrictIsSubsequence | XML_02.py:114 | the kept entries are the list's allowed entries in their original order |
| JsonTree.KeyPathsAreChainPaths | XML_03_final.py:61-72 | a path is collected exactly when a non-empty key chain reaches a node from the top and spells it; list items reuse their parent's path and scalars add none |
| JsonTree.Prune | XML_03_final.py:251-261 | an object stays an object, a list keeps its length and scalars are untouched |
| JsonTree.PruneFieldsKeeps | XML_03_final.py:253-258 | the entries kept are exactly those whose path is not excluded, in their original order, each pruned below its own path |
| JsonTree.PruneOccurs | XML_03_final.py:251-261 | a key chain reaches a node of the pruned copy exactly when it reaches one in the original and none of its steps lands on an excluded path |
| JsonTree.PrunedKeyPaths | XML_03_final.py:251-261 | a path survives exactly when some chain reaches it in the original without stepping on an excluded path |
| JsonTree.PruneRemovesExcluded | XML_03_final.py:251-261 | the pruned copy has no path that was not in the original and no excluded path |
| JsonTree.PruneIdentity | XML_03_final.py:251-261 | when no path of the value is excluded, pruning returns it unchanged |
| JsonTree.PruneUnchangedIff | XML_03_final.py:251-261 | pruning changes nothing exactly when no path of the value is excluded |
| JsonTree.PruneNothing | XML_02.py:181-191 | an empty exclusion list leaves the value unchanged |
| JsonTree.PruneIdempotent | XML_03_final.py:251-261 | pruning twice with the same list gives the same as pruning once |
| JsonTree.PruneWellFormed | XML_03_final.py:251-261 | pruning keeps every object's keys distinct |
| JsonTree.PruneMonotone | XML_03_final.py:251-261 | excluding more paths never leaves more paths |
| JsonTree.SamplePrunedField | XML_03_final.py:253-258 | excluding `a/y` removes `y` under `a` and leaves the rest of the sample document as it is |
| JsonTree.SamplePrunedList | XML_03_final.py:259-260 | excluding `b/x` strips `x` from every item of the list `b`, since list items share the list's path |
| JsonTree.FilteredFieldsKeeps | XML_03_final.py:175-183 | the filtered object keeps exactly the entries whose path is included, in order, each filtered below its own path |
| JsonTree.FilteredIsPruned | XML_03_final.py:175-193 | when every path is included or excluded but not both, `json_to_dict_filtered` equals `prune_any` |
| DictView.FirstOccurrences | XML_03_final.py:138-147 | the keys of the built dictionary: every key of the children, each exactly once |
| DictView.ValuesOf | XML_03_final.py:138-147 | the values collected for a tag are empty exactly when no child has that tag, and each is the view of some child |
| DictView.GroupFoldGroups | XML_03_final.py:138-147 | the built dictionary has one entry per distinct tag in first-seen order; a tag seen once maps to its value, a repeated tag to the list of its values in document order |
| XmlTree.TagPathsAreChainPaths | XML_03_final.py:45-51 | a path is collected exactly when a non-empty tag chain leads from the root to a descendant and spells it, starting below the root |
| XmlTree.Prune | XML_03_final.py:239-246 | the element keeps its tag and text and ends up with no more children than before |
| XmlTree.PruneKeeps | XML_03_final.py:240-245 | the children kept are exactly those whose joined path is not excluded, in their original order, each pruned below its own path |
| XmlTree.PruneOccurs | XML_03_final.py:239-246 | a tag chain reaches an element of the pruned copy exactly when it reaches one in the original and none of its steps is excluded, so an excluded child vanishes with its subtree |
| XmlTree.PrunedTagPaths | XML_03_final.py:239-246 | a path survives exactly when some chain reaches it in the original without stepping on an excluded path |
| XmlTree.PruneRemovesExcluded | XML_03_final.py:239-246 | the pruned copy has no path that was not in the original and no excluded path |
| XmlTree.PruneIdentity | XML_03_final.py:239-246 | when no path of the element is excluded, pruning returns it unchanged |
| XmlTree.PruneUnchangedIff | XML_03_final.py:239-246 | pruning changes nothing exactly when no path of the element is excluded |
| XmlTree.PruneNothing | XML_02.py:169-176 | an empty exclusion list leaves the element unchanged |
| XmlTree.PruneIdempotent | XML_03_final.py:239-246 | pruning twice with the same list gives the same as pruning once |
| XmlTree.PruneMonotone | XML_03_final.py:239-246 | excluding more paths never leaves more paths |
| XmlTree.PruneTagsNonEmpty | XML_03_final.py:239-246 | pruning a parsed tree gives a tree with non-empty tags again |
| XmlTree.PruneReadsOwnPaths | XML_03_final.py:239-246 | two exclusion lists that agree on the element's own paths prune it identically |
| XmlTree.ToDict | XML_02.py:215-228 | an element without children becomes its text (`""` when it has none), any other element becomes an object, never a list |
| XmlTree.ToDictGroups | XML_02.py:219-228 | the object's keys are the children's distinct tags in first-seen order, each mapped to the single child's view or to the list of views of all children with that tag |
| XmlTree.ToDictFiltered | XML_03_final.py:158-171 | the filtered view of an element is never a list |
| XmlTree.FilteredIsPrunedView | XML_03_final.py:158-172 | when every path is included or excluded but not both, `xml_to_dict_filtered` equals `xml_to_dict` of the pruned element |
| Documents.DocPathsSpelled | XML_03_final.py:45-72 | a path is collected from a document exactly when a non-empty chain of tags or keys reaches a node from the top and spells it |
| Documents.SampleDocPaths | XML_03_final.py:45-51 | the paths of `<root><a>1</a><b>2</b></root>` are `a` and `b` |
| Documents.PruneDocument | XML_03_final.py:198-223 | the size preview and the download prune the same way; the kind of document and the root's tag and text are kept |
| Documents.PruneDocumentHides | XML_03_final.py:237-261 | the download has no excluded path and no path the upload lacks |
| Documents.PruneDocumentUnchangedIff | XML_03_final.py:237-261 | the download equals the upload exactly when no path of the upload is excluded |
| Documents.PruneDocumentNothing | XML_02.py:167-191 | nothing excluded, nothing changed |
| Documents.PruneDocumentIdempotent | XML_03_final.py:237-261 | pruning the download again with the same list changes nothing |
| Documents.PruneDocumentParsed | XML_03_final.py:237-261 | the download is again a document the parser could have produced |
| Documents.PruneDocumentMonotone | XML_03_final.py:237-261 | excluding more never leaves more in the download |
| Documents.FilteredViewIsExportView | XML_03_final.py:155-193 | the filtered hierarchy panel shows exactly the hierarchy of the download, whenever every path is included or excluded but not both |
| Session.LoadFilter | XML_03_final.py:94-95 | loading sets `include` to the file's list, or to the full tag list when the file has none; the text box receives the entries joined with commas, which parse to the patterns of each entry in turn, and to the entries themselves when they are clean patterns |
| Session.OptionList | XML_03_final.py:115 | an option is a tag of the list that no wildcard matched |
| Session.Show | XML_03_final.py:115-121 | the multiselect rejects its default exactly when it holds a non-option, naming exactly the default entries that are not options; otherwise it shows the default as the selection, the wildcard matches are exactly those of the patterns, and `exclude` is the complement of the selection among the tags, holding every wildcard match |
| Session.NothingTypedNothingExcluded | XML_03_final.py:108-121 | with no pattern and every option selected, nothing is excluded |
| Session.SaveFilter | XML_03_final.py:231 | loading the saved file back, into any tag list, stores exactly the current selection as `include`, and the saved patterns, joined with commas, parse back to themselves |
| Session.Download | XML_03_final.py:237-263 | there is a download exactly when the column was rendered, and it is a document of the uploaded kind |
| Session.DownloadHonoursView | XML_03_final.py:237-261 | the download keeps only selected paths and no wildcard match, equals the upload exactly when all its paths are selected, and the filtered panel shows it |
| Ingest03.Tags | XML_03_final.py:45-53 | a tag is the root's own tag or the spelling of a non-empty tag chain from the root (for JSON, of a non-empty key chain), and every path of the document is a tag |
| Ingest03.Render | XML_03_final.py:109-121 | without a stored `include` every option is selected; with one, the column is rejected exactly when it holds a non-option, and otherwise shows it as the selection |
| Ingest03.BlankSessionKeepsDocument | XML_03_final.py:108-121 | before anything is typed or loaded nothing is excluded and the download is the upload |
| Ingest03.SavedFilterRestoresView | XML_03_final.py:231 | loading a saved filter into the same document restores the same column |
| Ingest03.LoadedFilterWithoutIncludeRejected | XML_03_final.py:95 | a filter file without `include`, its wildcard entries written any way, is rejected exactly when the patterns parsed from them match a tag, the matched tags being the offending entries |
| Ingest03.FullDefaultRejected | XML_03_final.py:115-121 | with the full tag list as the stored default, the column is rejected exactly when the wildcards match a tag, naming exactly the matched tags |
| Ingest03.SampleWildcardFilterRejected | XML_03_final.py:116-120 | `{"wildcards": ["b"]}` on the sample document is rejected because of `b` |
| Ingest03.SampleTags | XML_03_final.py:45-53 | the sample's tags are `root`, `a` and `b` |
| Ingest03.SamplePaths | XML_03_final.py:239-246 | excluding `b` removes `<b>` from the sample |
| Ingest03.SampleRootPathInert | XML_03_final.py:45-53 | excluding `root/b` leaves the sample as it is, since paths start below the root |
| Ingest03.SampleMatch | XML_03_final.py:110 | the wildcard `b` matches exactly the tag `b` of the sample |
| Ingest03.RootTagInert | XML_03_final.py:52-53 | unless a path below the root spells the root's tag, selecting or deselecting that tag does not change the download |
| Ingest03.SampleRootTagShared | XML_03_final.py:239-246 | in `<a><a/></a>` the root's tag is also the path of its child, and excluding `a` removes that child |
| Ingest03.DownloadHonoursSelection | XML_03_final.py:115-121 | the download keeps only selected paths and no wildcard match, equals the upload exactly when all its paths are selected, and the filtered panel shows it |
| Ingest02.Tags | XML_02.py:50-57 | a tag is exactly the spelling of a non-empty tag chain from the root (for JSON, of a non-empty key chain), so the root's own tag is not one unless a descendant spells it |
| Ingest02.SampleTags | XML_02.py:50-57 | the tags of `<root><a>1</a><b>2</b></root>` are `a` and `b` |
| Ingest02.Patterns | XML_02.py:106 | no patterns for an empty box; otherwise clean patterns only |
| Ingest02.PatternsGuardRedundant | XML_02.py:106 | the empty-input guard gives the same patterns as parsing without it |
| Ingest02.Render | XML_02.py:106-118 | the column is always shown; the selection is the stored entries that are still options, or all options when nothing is stored |
| Ingest02.StoredSelectionKept | XML_02.py:113-114 | a stored selection made of current options is taken over exactly |
| Ingest02.BlankSessionKeepsDocument | XML_02.py:102-118 | before anything is typed or loaded nothing is excluded and the download is the upload |
| Ingest02.SavedFilterRestoresView | XML_02.py:160 | loading a saved filter into the same document restores the same column |
| Ingest02.LoadedFilterWithoutIncludeAccepted | XML_02.py:89 | a filter file without `include`, its wildcard entries written any way, selects every tag the patterns parsed from them leave and excludes exactly what they match |
| Ingest02.FullDefaultAccepted | XML_02.py:112-118 | with the full tag list as the stored default, the selection is every tag the wildcards leave and `exclude` is exactly the wildcard matches |
| Ingest02.SampleWildcardFilterAccepted | XML_02.py:113-114 | `{"wildcards": ["b"]}` on the sample document, whose tags are `a` and `b`, selects `a` and excludes `b` |
| Ingest02.DownloadHonoursSelection | XML_02.py:112-118 | the download keeps only selected paths and no wildcard match, and equals the upload exactly when all its paths are selected |

## Left out

- Streamlit itself: uploads, checkboxes, badges, `st.cache_data`, widget keys beyond the two session-state entries above, and the rendering of panels. For the multiselect only two things are modelled: its rule that every default entry must be an option, and that the user picks among the options.
- Byte sizes: `ET.tostring` and `json.dumps` are library serialisers. The claim that the pruned file is smaller is therefore not stated; only the pruning is modelled.
- Parsing: `ET.fromstring`, `json.loads` and their error messages are library calls. `Documents.Parsed` records what a successful parse guarantees: non-empty tags and distinct object keys.
- Reading a malformed filter file, or one whose lists hold non-strings: this is the exception branch at `XML_03_final.py:98-99`, and it depends on the JSON library.
- XML attributes and tail text: no path, view or pruning decision reads them.
- JSON numbers: they are integers. Pruning never inspects a number.
- Selection.WildExcl: `fnmatch` character classes (`[...]`) and case normalisation are not modelled, only `*`, `?` and literal characters; a `[` is matched as itself. The platform's case handling is outside the program. For this reason `Glob.Literal`, and with it `Glob.LiteralMatchesItself` and `Selection.LiteralPatternExcludesItself`, only cover patterns without `[`.
- Ingest03.Tags: the tag list is `sorted(...)` (`XML_03_final.py:73`). The model keeps the tags as a set and takes any enumeration of them as the list, because the order only affects display.
- Ingest02.Tags: likewise `sorted(...)` (`XML_02.py:57` and `:76`), kept as a set for the same reason.
- Session.Show: when the session already holds `include`, Streamlit may also compare the stored value itself against the options. That check lives inside the widget library and is not modelled.
- Ingest02.Render: the model takes the multiselect's starting value to be the filtered `default` of `XML_02.py:113-114`. But `include` is also the widget's own session key (`XML_02.py:115-117`), and loading a filter file writes the unfiltered `cfg.get('include', tags)` there (`XML_02.py:89`). Streamlit then starts from that stored value in place of `default`, so after a load it may reject the stored list or return it as `include` unfiltered. How the widget library treats a stored value is not modelled. `Ingest02.LoadedFilterWithoutIncludeAccepted` and `Ingest02.SampleWildcardFilterAccepted` inherit this: they describe the column as the filtered default would make it.
- The overview table (`XML_03_final.py:76-84`), `format_label` and the footer counts: these are display only.
- The JSON footer at `XML_02.py:206` calls `cnt`, a name the file never defines, so for a JSON upload the script stops there with a `NameError` after the download button; the model ends with the download.
- Timestamps, output file names and the log download of `XML_03_final.py:273-293` (a text file listing `include` and `exclude`): clock, formatting and a second download button only.
- The RDF viewers, the dashboard and the metadata script in the same repository: these are not part of the path filter.

## Findings

| source | as written | input that shows it | evidently intended | confidence | as-written member | corrected member |
|---|---|---|---|---|---|---|
| XML_03_final.py:116 | the stored `include` is passed to the multiselect as its default unfiltered, and loading a filter file without `include` stores the full tag list there (line 95) | upload `<root><a>1</a><b>2</b></root>` and load `{"wildcards": ["b"]}`: the default holds `b`, the options are `a` and `root`, and the multiselect rejects a default entry that is not an option | the multiselect should start from the stored entries that are still options, so that a loaded filter never hands it a non-option. `XML_02.py:113-114` applies that filter to the `default` argument only, and on the load path the unfiltered list stored under the widget's key at `XML_02.py:89` may still take its place | medium; not executed | Ingest03.LoadedFilterWithoutIncludeRejected | Ingest02.LoadedFilterWithoutIncludeAccepted |

=== FILE: common.dfy ===
/** Small helpers shared by the document models. */
module Common {

  /** An optional value, as Python's `None` or a value. */
  datatype Option<T> = None | Some(value: T) {
    /** `d.get(key, default)` once the lookup has been made. */
    function GetOr(default: T): T {
      match this
      case Some(v) => v
      case None => default
    }
  }

  /** The positions of the elements of `xs` that `dropped` does not reject, in
      increasing order: the shape of "iterate over a snapshot and delete some". */
  function Survivors<A>(xs: seq<A>, dropped: A -> bool): (k: seq<nat>)
    ensures forall m :: 0 <= m < |k| ==> k[m] < |xs|
    ensures forall m, n :: 0 <= m < n < |k| ==> k[m] < k[n]
  {
    if xs == [] then []
    else (if dropped(xs[0]) then [] else [0]) + Shift(Survivors(xs[1..], dropped))
  }

  /** A position is chosen exactly when its element is not rejected. */
  lemma {:induction false} SurvivorsChoose<A>(xs: seq<A>, dropped: A -> bool)
    ensures forall i :: 0 <= i < |xs| ==> (i in Survivors(xs, dropped) <==> !dropped(xs[i]))
  {
    if xs != [] {
      var rest := Survivors(xs[1..], dropped);
      SurvivorsChoose(xs[1..], dropped);
      ShiftMembership(rest, |xs| - 1);
      forall i | 1 <= i < |xs|
        ensures xs[i] == xs[1..][i - 1]
      {
      }
    }
  }

  /** Reading a list of chosen positions back out of `Survivors`. */
  lemma SurvivorIndex<A>(xs: seq<A>, dropped: A -> bool, i: int) returns (m: nat)
    requires 0 <= i < |xs| && !dropped(xs[i])
    ensures m < |Survivors(xs, dropped)| && Survivors(xs, dropped)[m] == i
  {
    var k := Survivors(xs, dropped);
    SurvivorsChoose(xs, dropped);
    assert i in k;
    m :| 0 <= m < |k| && k[m] == i;
  }

  /** Every position moved one place to the right. */
  function Shift(k: seq<nat>): (s: seq<nat>)
    ensures |s| == |k|
    ensures forall m :: 0 <= m < |k| ==> s[m] == k[m] + 1
  {
    seq(|k|, m requires 0 <= m < |k| => k[m] + 1)
  }

  lemma ShiftMembership(k: seq<nat>, bound: nat)
    ensures forall i :: 1 <= i <= bound ==> (i in Shift(k) <==> i - 1 in k)
    ensures 0 !in Shift(k)
  {
    var s := Shift(k);
    forall i | 1 <= i <= bound
      ensures i in s <==> i - 1 in k
    {
      if i in s {
        var m :| 0 <= m < |s| && s[m] == i;
        assert k[m] == i - 1;
      }
      if i - 1 in k {
        var m :| 0 <= m < |k| && k[m] == i - 1;
        assert s[m] == i;
      }
    }
  }

  /** When nothing is rejected, every position survives. */
  lemma {:induction false} NoneDropped<A>(xs: seq<A>, dropped: A -> bool)
    requires forall i :: 0 <= i < |xs| ==> !dropped(xs[i])
    ensures Survivors(xs, dropped) == seq(|xs|, i => i)
  {
    if xs != [] {
      NoneDropped(xs[1..], dropped);
      var s := Survivors(xs, dropped);
      assert s == [0] + Shift(seq(|xs| - 1, i => i));
      forall i | 0 <= i < |xs|
        ensures s[i] == i
      {
        if i > 0 { assert s[i] == Shift(seq(|xs| - 1, i => i))[i - 1]; }
      }
    }
  }

  /** Two rejection tests that agree on every element choose the same positions. */
  lemma {:induction false} SurvivorsAgree<A>(xs: seq<A>, d1: A -> bool, d2: A -> bool)
    requires forall i :: 0 <= i < |xs| ==> d1(xs[i]) == d2(xs[i])
    ensures Survivors(xs, d1) == Survivors(xs, d2)
  {
    if xs != [] {
      SurvivorsAgree(xs[1..], d1, d2);
    }
  }

  /** The surviving elements of `xs`, each transformed by `f`, in their original order. */
  function KeepMap<A, B>(xs: seq<A>, dropped: A -> bool, f: A -> B): (r: seq<B>)
    ensures |r| == |Survivors(xs, dropped)|
    ensures forall m :: 0 <= m < |r| ==> r[m] == f(xs[Survivors(xs, dropped)[m]])
  {
    if xs == [] then []
    else
      var rest := KeepMap(xs[1..], dropped, f);
      KeepMapStep(xs, dropped, f, rest);
      (if dropped(xs[0]) then [] else [f(xs[0])]) + rest
  }

  lemma KeepMapStep<A, B>(xs: seq<A>, dropped: A -> bool, f: A -> B, rest: seq<B>)
    requires xs != []
    requires |rest| == |Survivors(xs[1..], dropped)|
    requires forall m :: 0 <= m < |rest| ==> rest[m] == f(xs[1..][Survivors(xs[1..], dropped)[m]])
    ensures var r := (if dropped(xs[0]) then [] else [f(xs[0])]) + rest;
            && |r| == |Survivors(xs, dropped)|
            && forall m :: 0 <= m < |r| ==> r[m] == f(xs[Survivors(xs, dropped)[m]])
  {
    var k1 := Survivors(xs[1..], dropped);
    ShiftedPositions(xs, f, rest, k1);
    PrependPosition(xs, f, rest, Shift(k1), !dropped(xs[0]));
    assert Survivors(xs, dropped) == (if dropped(xs[0]) then [] else [0]) + Shift(k1);
  }

  /** Positions into the tail of `xs` become positions into `xs` once shifted. */
  lemma ShiftedPositions<A, B>(xs: seq<A>, f: A -> B, rest: seq<B>, k1: seq<nat>)
    requires xs != [] && |rest| == |k1|
    requires forall m :: 0 <= m < |k1| ==> k1[m] < |xs| - 1
    requires forall m :: 0 <= m < |rest| ==> rest[m] == f(xs[1..][k1[m]])
    ensures forall m :: 0 <= m < |rest| ==> Shift(k1)[m] < |xs| && rest[m] == f(xs[Shift(k1)[m]])
  {
    forall m | 0 <= m < |rest|
      ensures Shift(k1)[m] < |xs| && rest[m] == f(xs[Shift(k1)[m]])
    {
      assert xs[1..][k1[m]] == xs[k1[m] + 1];
    }
  }

  /** Putting position 0 in front of the positions, and `f` of the first
      element in front of the images, keeps them matched. */
  lemma PrependPosition<A, B>(xs: seq<A>, f: A -> B, rest: seq<B>, s1: seq<nat>, keep: bool)
    requires xs != [] && |rest| == |s1|
    requires forall m :: 0 <= m < |s1| ==> s1[m] < |xs| && rest[m] == f(xs[s1[m]])
    ensures var r := (if keep then [f(xs[0])] else []) + rest;
            var k := (if keep then [0] else []) + s1;
            && |r| == |k|
            && forall m :: 0 <= m < |r| ==> k[m] < |xs| && r[m] == f(xs[k[m]])
  {
    var r := (if keep then [f(xs[0])] else []) + rest;
    var k := (if keep then [0] else []) + s1;
    var off := if keep then 1 else 0;
    forall m | off <= m < |r|
      ensures k[m] < |xs| && r[m] == f(xs[k[m]])
    {
      assert r[m] == rest[m - off] && k[m] == s1[m - off];
    }
  }
}

=== FILE: dict.dfy ===
/** The nested dicts of the XML hierarchy views: each child becomes an entry
    under its tag, and a tag met again turns that entry into a list. */
module DictView {
  import opened JsonTree

  function KeysOf(fs: seq<Field>): (ks: seq<string>)
    ensures |ks| == |fs| && forall i :: 0 <= i < |fs| ==> ks[i] == fs[i].key
  {
    seq(|fs|, i requires 0 <= i < |fs| => fs[i].key)
  }

  /** The first position holding `key`, or -1 when there is none. */
  function Find(fs: seq<Field>, key: string): (r: int)
    ensures -1 <= r < |fs|
    ensures r >= 0 ==> fs[r].key == key
    ensures r < 0 <==> key !in KeysOf(fs)
  {
    if fs == [] then -1
    else if fs[0].key == key then 0
    else
      var r := Find(fs[1..], key);
      KeysOfTail(fs);
      assert key in KeysOf(fs) <==> key in KeysOf(fs[1..]);
      if r < 0 then -1 else assert fs[r + 1] == fs[1..][r]; r + 1
  }

  lemma KeysOfTail(fs: seq<Field>)
    requires fs != []
    ensures KeysOf(fs) == [fs[0].key] + KeysOf(fs[1..])
  {
    forall i | 0 < i < |fs|
      ensures KeysOf(fs)[i] == KeysOf(fs[1..])[i - 1]
    {
      assert fs[1..][i - 1] == fs[i];
    }
  }

  /** The value stored when a tag is met again: the earlier value wrapped in
      a list the first time, then the list extended. */
  function Merge(prev: Json, v: Json): Json
  {
    if prev.JArr? then JArr(prev.items + [v]) else JArr([prev, v])
  }

  /** One turn of the `for c in children` loop of `xml_to_dict`: a new tag
      gets an entry at the end, a known tag has its entry merged in place. */
  function Insert(fs: seq<Field>, key: string, v: Json): seq<Field>
  {
    var i := Find(fs, key);
    if i < 0 then fs + [Field(key, v)]
    else fs[i := Field(key, Merge(fs[i].value, v))]
  }

  /** The dict `xml_to_dict` builds from the (tag, view) pairs of the children. */
  function GroupFold(pairs: seq<Field>): seq<Field>
  {
    if pairs == [] then []
    else Insert(GroupFold(pairs[..|pairs| - 1]), pairs[|pairs| - 1].key, pairs[|pairs| - 1].value)
  }

  /** The distinct keys in order of first occurrence. */
  function FirstOccurrences(keys: seq<string>): (d: seq<string>)
    ensures forall k :: k in d <==> k in keys
    ensures forall i, j :: 0 <= i < j < |d| ==> d[i] != d[j]
  {
    if keys == [] then []
    else
      var d := FirstOccurrences(keys[..|keys| - 1]);
      assert keys == keys[..|keys| - 1] + [keys[|keys| - 1]];
      if keys[|keys| - 1] in d then d else d + [keys[|keys| - 1]]
  }

  /** The values paired with `key`, in order. */
  function ValuesOf(pairs: seq<Field>, key: string): (vs: seq<Json>)
    ensures vs == [] <==> key !in KeysOf(pairs)
    ensures forall t :: t in vs ==> exists i :: 0 <= i < |pairs| && pairs[i].value == t
  {
    if pairs == [] then []
    else
      var pre := pairs[..|pairs| - 1];
      var last := pairs[|pairs| - 1];
      assert KeysOf(pairs) == KeysOf(pre) + [last.key];
      var vs := ValuesOf(pre, key);
      assert forall t :: t in vs ==> exists i :: 0 <= i < |pre| && pre[i].value == t;
      vs + (if last.key == key then [last.value] else [])
  }

  /** A single occurrence stays unwrapped; repeated ones form a list. */
  function Group(vs: seq<Json>): Json
  {
    if |vs| == 1 then vs[0] else JArr(vs)
  }

  predicate NoListValues(pairs: seq<Field>)
  {
    forall i :: 0 <= i < |pairs| ==> !pairs[i].value.JArr?
  }

  /** `r` holds one entry per distinct key of `pairs`, in order of first
      occurrence, with the single value of that key or the list of all of them. */
  ghost predicate Grouped(r: seq<Field>, pairs: seq<Field>)
  {
    && KeysOf(r) == FirstOccurrences(KeysOf(pairs))
    && forall m :: 0 <= m < |r| ==>
         |ValuesOf(pairs, r[m].key)| >= 1 && r[m].value == Group(ValuesOf(pairs, r[m].key))
  }

  lemma AppendKeys(pre: seq<Field>, f: Field)
    ensures KeysOf(pre + [f]) == KeysOf(pre) + [f.key]
  {
    var pairs := pre + [f];
    forall i | 0 <= i < |pairs|
      ensures KeysOf(pairs)[i] == (KeysOf(pre) + [f.key])[i]
    {
      if i < |pre| { assert pairs[i] == pre[i]; }
    }
  }

  lemma AppendValues(pre: seq<Field>, f: Field, key: string)
    ensures ValuesOf(pre + [f], key) == ValuesOf(pre, key) + (if key == f.key then [f.value] else [])
  {
    var pairs := pre + [f];
    assert pairs[..|pairs| - 1] == pre && pairs[|pairs| - 1] == f;
  }

  /** An entry for another key is not affected by one more pair. */
  lemma KeptEntry(pre: seq<Field>, f: Field, e: Field)
    requires e.key != f.key
    requires |ValuesOf(pre, e.key)| >= 1 && e.value == Group(ValuesOf(pre, e.key))
    ensures |ValuesOf(pre + [f], e.key)| >= 1 && e.value == Group(ValuesOf(pre + [f], e.key))
  {
    AppendValues(pre, f, e.key);
  }

  /** A key not met before is appended to the order of first occurrences. */
  lemma NewKeyKeys(pre: seq<Field>, f: Field)
    requires f.key !in KeysOf(pre)
    ensures FirstOccurrences(KeysOf(pre + [f])) == FirstOccurrences(KeysOf(pre)) + [f.key]
  {
    AppendKeys(pre, f);
    var keys := KeysOf(pre + [f]);
    assert keys[..|keys| - 1] == KeysOf(pre) && keys[|keys| - 1] == f.key;
  }

  lemma InsertNew(acc: seq<Field>, pre: seq<Field>, k: string, v: Json)
    requires Grouped(acc, pre) && k !in KeysOf(pre)
    ensures Grouped(acc + [Field(k, v)], pre + [Field(k, v)])
  {
    var pairs := pre + [Field(k, v)];
    var r := acc + [Field(k, v)];
    NewKeyKeys(pre, Field(k, v));
    AppendKeys(acc, Field(k, v));
    forall m | 0 <= m < |r|
      ensures |ValuesOf(pairs, r[m].key)| >= 1 && r[m].value == Group(ValuesOf(pairs, r[m].key))
    {
      if m < |acc| {
        assert r[m] == acc[m];
        assert KeysOf(acc)[m] == acc[m].key;
        assert acc[m].key in KeysOf(pre);
        KeptEntry(pre, Field(k, v), acc[m]);
      } else {
        AppendValues(pre, Field(k, v), k);
        assert ValuesOf(pre, k) == [];
      }
    }
  }

  /** Values drawn from pairs without list values are not lists. */
  lemma ValuesNotLists(pairs: seq<Field>, key: string)
    requires NoListValues(pairs)
    ensures forall t :: t in ValuesOf(pairs, key) ==> !t.JArr?
  {
    forall t | t in ValuesOf(pairs, key)
      ensures !t.JArr?
    {
      var i :| 0 <= i < |pairs| && pairs[i].value == t;
    }
  }

  /** Merging one more value into a group gives the group of all of them. */
  lemma MergeGroups(vs: seq<Json>, v: Json)
    requires |vs| >= 1 && forall t :: t in vs ==> !t.JArr?
    ensures Merge(Group(vs), v) == Group(vs + [v])
  {
    if |vs| == 1 {
      assert vs[0] in vs;
      assert vs + [v] == [vs[0], v];
    }
  }

  /** A key met before leaves the order of first occurrences as it is. */
  lemma KnownKeyKeys(pre: seq<Field>, f: Field)
    requires f.key in KeysOf(pre)
    ensures FirstOccurrences(KeysOf(pre + [f])) == FirstOccurrences(KeysOf(pre))
  {
    AppendKeys(pre, f);
    var keys := KeysOf(pre + [f]);
    assert keys[..|keys| - 1] == KeysOf(pre) && keys[|keys| - 1] == f.key;
  }

  lemma InsertKnown(acc: seq<Field>, pre: seq<Field>, k: string, v: Json, i: nat)
    requires Grouped(acc, pre) && NoListValues(pre)
    requires i < |acc| && acc[i].key == k
    ensures Grouped(acc[i := Field(k, Merge(acc[i].value, v))], pre + [Field(k, v)])
  {
    var pairs := pre + [Field(k, v)];
    var r := acc[i := Field(k, Merge(acc[i].value, v))];
    assert KeysOf(acc)[i] == k;
    KnownKeyKeys(pre, Field(k, v));
    assert KeysOf(r) == KeysOf(acc);
    var vs := ValuesOf(pre, k);
    ValuesNotLists(pre, k);
    MergeGroups(vs, v);
    forall m | 0 <= m < |r|
      ensures |ValuesOf(pairs, r[m].key)| >= 1 && r[m].value == Group(ValuesOf(pairs, r[m].key))
    {
      if m != i {
        assert KeysOf(acc)[m] != KeysOf(acc)[i];
        assert r[m] == acc[m];
        KeptEntry(pre, Field(k, v), acc[m]);
      } else {
        AppendValues(pre, Field(k, v), k);
      }
    }
  }

  /** The dict has one entry per distinct tag, in order of first occurrence,
      holding the single value of that tag or the list of all its values in
      order. This needs the values themselves never to be lists, which holds
      for `xml_to_dict`'s results. */
  lemma {:induction false} GroupFoldGroups(pairs: seq<Field>)
    requires NoListValues(pairs)
    ensures Grouped(GroupFold(pairs), pairs)
  {
    if pairs != [] {
      var pre := pairs[..|pairs| - 1];
      var k, v := pairs[|pairs| - 1].key, pairs[|pairs| - 1].value;
      assert pairs == pre + [Field(k, v)];
      GroupFoldGroups(pre);
      var acc := GroupFold(pre);
      var i := Find(acc, k);
      if i < 0 {
        InsertNew(acc, pre, k, v);
      } else {
        InsertKnown(acc, pre, k, v, i);
      }
    }
  }

  lemma GroupFoldEmpty(pairs: seq<Field>)
    ensures GroupFold(pairs) == [] <==> pairs == []
  {
    if pairs != [] {
      var acc := GroupFold(pairs[..|pairs| - 1]);
      var k := pairs[|pairs| - 1].key;
      if Find(acc, k) >= 0 {
        assert |GroupFold(pairs)| == |acc| > 0;
      }
    }
  }
}

=== FILE: documents.dfy ===
/** The uploaded document, XML or JSON, and the passes the optimizer runs over
    whichever kind it is: path collection, pruning (for the size preview and
    for the download) and the two hierarchy views. */
module Documents {
  import opened Common
  import opened Paths
  import XmlTree
  import JsonTree

  /** Exactly one shape is active per upload, chosen by the file extension. */
  datatype Document = XmlDoc(root: XmlTree.Elem) | JsonDoc(data: JsonTree.Json)

  /** What a successful parse guarantees: XML tags are non-empty and JSON
      objects hold each key once. */
  ghost predicate Parsed(d: Document)
  {
    match d
    case XmlDoc(root) => XmlTree.TagsNonEmpty(root)
    case JsonDoc(data) => JsonTree.WellFormed(data)
  }

  /** The paths `collect_tags(root)` / `collect_keys(data)` find below the top. */
  function DocPaths(d: Document): set<string>
  {
    match d
    case XmlDoc(root) => XmlTree.TagPaths(root, "")
    case JsonDoc(data) => JsonTree.KeyPaths(data, "")
  }

  /** `q` is spelled by a non-empty chain of names (tags, or object keys)
      leading down from the top of `d`: below the root element for XML,
      through objects and into list items for JSON. */
  ghost predicate Spelled(d: Document, q: string)
  {
    match d
    case XmlDoc(root) =>
      exists chain :: chain != [] && XmlTree.Occurs(root, chain) && ChainPath("", chain) == q
    case JsonDoc(data) =>
      exists chain :: chain != [] && JsonTree.Occurs(data, chain) && ChainPath("", chain) == q
  }

  /** The collected paths are exactly the spelled ones. */
  lemma DocPathsSpelled(d: Document)
    ensures forall q :: q in DocPaths(d) <==> Spelled(d, q)
  {
    forall q
      ensures q in DocPaths(d) <==> Spelled(d, q)
    {
      match d
      case XmlDoc(root) =>
        if q in DocPaths(d) {
          XmlTree.TagPathsSound(root, "", q);
        }
        if Spelled(d, q) {
          var chain :| chain != [] && XmlTree.Occurs(root, chain) && ChainPath("", chain) == q;
          XmlTree.TagPathsComplete(root, "", chain);
        }
      case JsonDoc(data) =>
        if q in DocPaths(d) {
          JsonTree.KeyPathsSound(data, "", q);
        }
        if Spelled(d, q) {
          var chain :| chain != [] && JsonTree.Occurs(data, chain) && ChainPath("", chain) == q;
          JsonTree.KeyPathsComplete(data, "", chain);
        }
    }
  }

  /** The pruned deep copy: `calc_size`'s `pr` and the download's `prune` /
      `prune_any`, both started at the top with the empty path. */
  function PruneDocument(d: Document, excl: set<string>): (r: Document)
    ensures r.XmlDoc? <==> d.XmlDoc?
    ensures r.XmlDoc? ==> r.root.tag == d.root.tag && r.root.text == d.root.text
    ensures r.JsonDoc? ==> (r.data.JObj? <==> d.data.JObj?)
  {
    match d
    case XmlDoc(root) => XmlDoc(XmlTree.Prune(root, [], excl))
    case JsonDoc(data) => JsonDoc(JsonTree.Prune(data, "", excl))
  }

  /** Pruning hides every excluded path and invents none. */
  lemma PruneDocumentHides(d: Document, excl: set<string>)
    requires Parsed(d)
    ensures DocPaths(PruneDocument(d, excl)) <= DocPaths(d)
    ensures DocPaths(PruneDocument(d, excl)) !! excl
  {
    match d
    case XmlDoc(root) =>
      assert Join([]) == "";
      XmlTree.PruneRemovesExcluded(root, [], excl);
    case JsonDoc(data) =>
      JsonTree.PruneRemovesExcluded(data, "", excl);
  }

  /** The download equals the upload exactly when no path of the upload is excluded. */
  lemma PruneDocumentUnchangedIff(d: Document, excl: set<string>)
    requires Parsed(d)
    ensures PruneDocument(d, excl) == d <==> DocPaths(d) !! excl
  {
    match d
    case XmlDoc(root) =>
      assert Join([]) == "";
      XmlTree.PruneUnchangedIff(root, [], excl);
    case JsonDoc(data) =>
      JsonTree.PruneUnchangedIff(data, "", excl);
  }

  /** With nothing excluded the download is the upload. */
  lemma PruneDocumentNothing(d: Document)
    ensures PruneDocument(d, {}) == d
  {
    match d
    case XmlDoc(root) => XmlTree.PruneNothing(root, []);
    case JsonDoc(data) => JsonTree.PruneNothing(data, "");
  }

  /** Pruning the download once more with the same exclusions changes nothing. */
  lemma PruneDocumentIdempotent(d: Document, excl: set<string>)
    ensures PruneDocument(PruneDocument(d, excl), excl) == PruneDocument(d, excl)
  {
    match d
    case XmlDoc(root) => XmlTree.PruneIdempotent(root, [], excl);
    case JsonDoc(data) => JsonTree.PruneIdempotent(data, "", excl);
  }

  /** The download is again a document the parser could have produced. */
  lemma PruneDocumentParsed(d: Document, excl: set<string>)
    requires Parsed(d)
    ensures Parsed(PruneDocument(d, excl))
  {
    match d
    case XmlDoc(root) => XmlTree.PruneTagsNonEmpty(root, [], excl);
    case JsonDoc(data) => JsonTree.PruneWellFormed(data, "", excl);
  }

  /** Excluding more never leaves more in the download. */
  lemma PruneDocumentMonotone(d: Document, small: set<string>, large: set<string>)
    requires small <= large
    ensures DocPaths(PruneDocument(d, large)) <= DocPaths(PruneDocument(d, small))
  {
    match d
    case XmlDoc(root) =>
      assert Join([]) == "";
      XmlTree.PruneMonotone(root, [], small, large);
    case JsonDoc(data) =>
      JsonTree.PruneMonotone(data, "", small, large);
  }

  /** The "show hierarchy" panel: `{root.tag: xml_to_dict(root)}` for XML and
      the parsed value itself for JSON. */
  function Hierarchy(d: Document): (r: JsonTree.Json)
    ensures d.XmlDoc? ==> r.JObj? && |r.fields| == 1 && r.fields[0].key == d.root.tag
  {
    match d
    case XmlDoc(root) => JsonTree.JObj([JsonTree.Field(root.tag, XmlTree.ToDict(root))])
    case JsonDoc(data) => data
  }

  /** The "show filtered hierarchy" panel: `{root.tag: xml_to_dict_filtered(root)}`
      for XML and `json_to_dict_filtered(data)` for JSON, both driven by the
      include list rather than by the exclusion list. */
  function FilteredHierarchy(d: Document, incl: set<string>): (r: JsonTree.Json)
    ensures d.XmlDoc? ==> r.JObj? && |r.fields| == 1 && r.fields[0].key == d.root.tag
  {
    match d
    case XmlDoc(root) => JsonTree.JObj([JsonTree.Field(root.tag, XmlTree.ToDictFiltered(root, "", incl))])
    case JsonDoc(data) => JsonTree.Filtered(data, "", incl)
  }

  /** The filtered panel previews the download faithfully: whenever every path
      of the document is either included or excluded (never both), the
      filtered hierarchy is the plain hierarchy of the pruned document. */
  lemma FilteredViewIsExportView(d: Document, incl: set<string>, excl: set<string>)
    requires Parsed(d)
    requires forall q :: q in DocPaths(d) ==> (q in incl <==> q !in excl)
    ensures FilteredHierarchy(d, incl) == Hierarchy(PruneDocument(d, excl))
  {
    match d
    case XmlDoc(root) =>
      assert Join([]) == "";
      assert NoEmptyName([]);
      XmlTree.FilteredIsPrunedView(root, [], incl, excl);
    case JsonDoc(data) =>
      JsonTree.FilteredIsPruned(data, "", incl, excl);
  }

  /** The upload `<root><a>1</a><b>2</b></root>`. */
  function SampleDoc(): Document
  {
    XmlDoc(XmlTree.Elem("root", None, [
      XmlTree.Elem("a", Some("1"), []),
      XmlTree.Elem("b", Some("2"), [])]))
  }

  /** Paths start below the root: the sample's paths are `a` and `b`. */
  lemma SampleDocPaths()
    ensures DocPaths(SampleDoc()) == {"a", "b"}
  {
    var root := SampleDoc().root;
    assert XmlTree.TagPaths(root.children[0], "a") == {};
    assert XmlTree.TagPaths(root.children[1], "b") == {};
    assert XmlTree.TagPaths(root, "") == {"a", "b"};
  }
}

=== FILE: glob.dfy ===
/** Shell-style wildcard matching, the part of `fnmatch` the wildcard field uses. */
module Glob {

  /** `fnmatch.fnmatchcase(name, pat)` for patterns made of literal characters,
      `*` (any run of characters, `/` included) and `?` (any single character). */
  function Matches(pat: string, name: string): bool
    decreases |pat| + |name|
  {
    if pat == [] then name == []
    else if pat[0] == '*' then Matches(pat[1..], name) || (name != [] && Matches(pat, name[1..]))
    else name != [] && (pat[0] == '?' || pat[0] == name[0]) && Matches(pat[1..], name[1..])
  }

  /** A pattern without wildcard characters: no `*`, no `?`, and no `[`,
      which `fnmatch` may read as the start of a character class. */
  predicate Literal(pat: string)
  {
    forall i :: 0 <= i < |pat| ==> pat[i] != '*' && pat[i] != '?' && pat[i] != '['
  }

  /** A leading `*` matches any prefix of the name. */
  lemma {:induction false} StarSplits(rest: string, name: string)
    ensures Matches(['*'] + rest, name) <==> exists i :: 0 <= i <= |name| && Matches(rest, name[i..])
    decreases |name|
  {
    var pat := ['*'] + rest;
    assert pat[0] == '*' && pat[1..] == rest;
    assert name[0..] == name;
    if name != [] {
      StarSplits(rest, name[1..]);
      forall i | 0 <= i <= |name| - 1
        ensures name[1..][i..] == name[i + 1..]
      {
      }
      if exists i :: 0 <= i <= |name| && Matches(rest, name[i..]) {
        var i :| 0 <= i <= |name| && Matches(rest, name[i..]);
        if i > 0 {
          assert Matches(rest, name[1..][i - 1..]);
        }
      }
    }
  }

  /** The pattern `*` selects every path. */
  lemma StarMatchesAll(name: string)
    ensures Matches("*", name)
  {
    StarSplits("", name);
    assert Matches("", name[|name|..]);
  }

  /** A literal pattern selects exactly the path it spells. */
  lemma {:induction false} LiteralMatchesItself(pat: string, name: string)
    requires Literal(pat)
    ensures Matches(pat, name) <==> pat == name
    decreases |pat|
  {
    if pat != [] && name != [] {
      LiteralMatchesItself(pat[1..], name[1..]);
      if pat == name {
        assert pat[1..] == name[1..];
      }
      if pat[0] == name[0] && pat[1..] == name[1..] {
        assert pat == [pat[0]] + pat[1..] && name == [name[0]] + name[1..];
      }
    }
  }
}

=== FILE: ingest02.dfy ===
/** `XML_02.py`: the shared column of `Session` with this script's tag
    collection (paths below the root only), its guarded pattern parse, and
    a multiselect default that keeps only the stored entries still offered. */
module Ingest02 {
  import opened Common
  import opened Selection
  import opened Session
  import opened Documents

  /** `sorted(collect_tags(root).keys())` / `sorted(collect_keys(data).keys())`:
      the root's own tag is not among them. */
  function Tags(d: Document): (tags: set<string>)
    ensures tags == DocPaths(d)
    ensures forall q :: q in tags <==> Spelled(d, q)
  {
    DocPathsSpelled(d);
    DocPaths(d)
  }

  /** The pattern list, parsed only when the text box is non-empty. */
  function Patterns(input: string): (pats: seq<string>)
    ensures forall i :: 0 <= i < |pats| ==> IsPattern(pats[i])
    ensures input == "" ==> pats == []
  {
    if |input| > 0 then ParsePatterns(input) else []
  }

  /** The guard is redundant: an empty box parses to no patterns anyway. */
  lemma PatternsGuardRedundant(input: string)
    ensures Patterns(input) == ParsePatterns(input)
  {
    if |input| == 0 {
      assert input == "";
      ParseEmpty();
    }
  }

  /** The column for the current session: the stored `include`, cut down to
      the current options, is the multiselect's default. */
  function Render(tagList: seq<string>, s: State): (v: View)
    ensures v.Shown?
    ensures v.patterns == ParsePatterns(s.wildcardInput)
    ensures s.chosen.None? ==> v.selection == v.options
    ensures s.chosen.Some? ==> forall t :: t in v.selection <==> t in s.chosen.value && t in v.options
  {
    PatternsGuardRedundant(s.wildcardInput);
    var patterns := Patterns(s.wildcardInput);
    var opts := OptionList(tagList, patterns);
    Show(tagList, patterns, if s.chosen.Some? then Restrict(s.chosen.value, Elems(opts)) else opts)
  }

  /** A stored selection drawn from the current options is taken over as it is. */
  lemma StoredSelectionKept(tagList: seq<string>, s: State)
    requires s.chosen.Some?
    requires Elems(s.chosen.value) <= Elems(OptionList(tagList, ParsePatterns(s.wildcardInput)))
    ensures Render(tagList, s).selection == s.chosen.value
  {
    var patterns := ParsePatterns(s.wildcardInput);
    var opts := OptionList(tagList, patterns);
    RenderStored(tagList, s);
    RestrictKeepsAllowed(s.chosen.value, Elems(opts));
    assert Restrict(s.chosen.value, Elems(opts)) == s.chosen.value;
  }

  /** The view of a session with a stored selection, spelled out. */
  lemma RenderStored(tagList: seq<string>, s: State)
    requires s.chosen.Some?
    ensures var patterns := ParsePatterns(s.wildcardInput);
            Render(tagList, s) ==
            Show(tagList, patterns, Restrict(s.chosen.value, Elems(OptionList(tagList, patterns))))
  {
    PatternsGuardRedundant(s.wildcardInput);
  }

  /** Before anything is typed or loaded, every tag is selected and the
      download is the upload itself. */
  lemma BlankSessionKeepsDocument(d: Document, tagList: seq<string>)
    ensures Render(tagList, Blank()).exclude == {}
    ensures Download(d, Render(tagList, Blank())) == Some(d)
  {
    NothingTypedNothingExcluded(tagList);
    PruneDocumentNothing(d);
  }

  /** Saving the filter and loading it back into the same document restores
      the same column. */
  lemma SavedFilterRestoresView(tagList: seq<string>, s: State)
    ensures var v := Render(tagList, s);
            Render(tagList, LoadFilter(SaveFilter(v), tagList)) == v
  {
    var v := Render(tagList, s);
    var s' := LoadFilter(SaveFilter(v), tagList);
    assert ParsePatterns(s'.wildcardInput) == v.patterns;
    StoredSelectionKept(tagList, s');
  }

  /** Corrected: a filter file without an `include` list, its wildcard
      entries written any way at all, selects every option that their
      patterns leave, and excludes exactly what they match. */
  lemma LoadedFilterWithoutIncludeAccepted(tagList: seq<string>, cfg: FilterFile)
    requires cfg.included.None?
    ensures var v := Render(tagList, LoadFilter(cfg, tagList));
            && Elems(v.selection) == Elems(tagList) - WildExcl(Elems(tagList), ParseEach(cfg.wildcards))
            && v.exclude == WildExcl(Elems(tagList), ParseEach(cfg.wildcards))
  {
    var s := LoadFilter(cfg, tagList);
    FullDefaultAccepted(tagList, s);
  }

  /** With the full tag list as the stored selection, the default is every
      option and the excluded paths are exactly the wildcard's matches. */
  lemma FullDefaultAccepted(tagList: seq<string>, s: State)
    requires s.chosen == Some(tagList)
    ensures var v := Render(tagList, s);
            var wild := WildExcl(Elems(tagList), ParsePatterns(s.wildcardInput));
            && Elems(v.selection) == Elems(tagList) - wild
            && v.exclude == wild
  {
    FullDefaultSelection(tagList, s);
    var v := Render(tagList, s);
    assert v.exclude == Elems(tagList) - Elems(v.selection);
  }

  lemma FullDefaultSelection(tagList: seq<string>, s: State)
    requires s.chosen == Some(tagList)
    ensures var v := Render(tagList, s);
            Elems(v.selection) == Elems(tagList) - WildExcl(Elems(tagList), ParsePatterns(s.wildcardInput))
  {
    var v := Render(tagList, s);
    assert v.options == OptionList(tagList, ParsePatterns(s.wildcardInput));
  }

  /** Paths start below the root and the root's tag is not added: the
      sample's tags are `a` and `b`. */
  lemma SampleTags()
    ensures Tags(SampleDoc()) == {"a", "b"}
  {
    SampleDocPaths();
  }

  lemma SampleRestrict()
    ensures Restrict(["a", "b"], {"a"}) == ["a"]
  {
    SampleAllowed();
    RestrictCons("b", [], {"a"});
    RestrictCons("a", ["b"], {"a"});
    assert ["a"] + ["b"] == ["a", "b"];
  }

  lemma SampleAllowed()
    ensures "a" in {"a"} && "b" !in {"a"}
    ensures {"a", "b"} - {"b"} == {"a"}
  {
    assert "a" != "b";
  }

  /** With the pattern `b`, the sample's tag list offers `a` only. */
  lemma SampleOptions()
    ensures OptionList(["a", "b"], ["b"]) == ["a"]
  {
    var tagList := ["a", "b"];
    SampleElems();
    assert Glob.Literal("b");
    LiteralPatternExcludesItself(Elems(tagList), "b");
    SampleAllowed();
    assert Options(Elems(tagList), WildExcl(Elems(tagList), ["b"])) == {"a"};
    SampleRestrict();
  }

  /** Loading the sample filter hands the multiselect `a`. */
  lemma SampleLoaded()
    ensures Render(["a", "b"], LoadFilter(FilterFile(None, ["b"]), ["a", "b"]))
            == Show(["a", "b"], ["b"], ["a"])
  {
    var tagList := ["a", "b"];
    var s := LoadFilter(FilterFile(None, ["b"]), tagList);
    SampleState();
    RenderStored(tagList, s);
    SampleOptions();
    SampleElems();
    SampleRestrict();
  }

  /** The sample filter fills the text box with `b` and stores the tag list. */
  lemma SampleState()
    ensures LoadFilter(FilterFile(None, ["b"]), ["a", "b"]) == State("b", Some(["a", "b"]))
    ensures ParsePatterns("b") == ["b"]
  {
    SampleEntry();
    assert JoinWith(["b"]) == "b";
  }

  /** With `a` selected, `b` is the one excluded path. */
  lemma SampleShown()
    ensures Show(["a", "b"], ["b"], ["a"]).Shown?
    ensures Show(["a", "b"], ["b"], ["a"]).exclude == {"b"}
  {
    var v := Show(["a", "b"], ["b"], ["a"]);
    SampleOptions();
    SampleElems();
    assert v.Shown?;
    SampleAllowed();
    Complement(Elems(v.selection), v.exclude, Elems(["a", "b"]));
    assert {"a", "b"} - {"a"} == {"b"};
  }

  lemma SampleElems()
    ensures Elems(["a"]) == {"a"}
    ensures Elems(["a", "b"]) == {"a", "b"}
  {
  }

  /** The part of `whole` outside `part`, when the two split it. */
  lemma Complement(part: set<string>, rest: set<string>, whole: set<string>)
    requires part !! rest && part + rest == whole
    ensures rest == whole - part
  {
  }

  /** The filter file that XML_03 rejects, here accepted on the same upload:
      the tags are `a` and `b`, and `b` is left out of the selection and
      excluded. */
  lemma SampleWildcardFilterAccepted()
    ensures var v := Render(["a", "b"], LoadFilter(FilterFile(None, ["b"]), ["a", "b"]));
            v.selection == ["a"] && v.exclude == {"b"}
  {
    SampleLoaded();
    SampleShown();
  }

  /** The download keeps only selected paths and none that a wildcard
      matched, and it is the upload itself exactly when every path of the
      upload is selected. */
  lemma DownloadHonoursSelection(d: Document, tagList: seq<string>, s: State)
    requires Parsed(d) && Elems(tagList) == Tags(d)
    ensures var v := Render(tagList, s);
            v.Shown? ==>
              && Download(d, v).Some?
              && DocPaths(Download(d, v).value) <= Elems(v.selection)
              && DocPaths(Download(d, v).value) !! v.wild
              && (Download(d, v).value == d <==> DocPaths(d) <= Elems(v.selection))
  {
    var patterns := ParsePatterns(s.wildcardInput);
    PatternsGuardRedundant(s.wildcardInput);
    var opts := OptionList(tagList, patterns);
    DownloadHonoursView(d, tagList, patterns, if s.chosen.Some? then Restrict(s.chosen.value, Elems(opts)) else opts);
  }
}

=== FILE: ingest03.dfy ===
/** `XML_03_final.py`: the shared column of `Session` with this script's tag
    collection (the root's own tag is listed too) and its multiselect default
    (the stored `include` exactly as it stands). */
module Ingest03 {
  import opened Common
  import opened Paths
  import opened Glob
  import opened Selection
  import opened Session
  import opened Documents
  import XmlTree

  /** The keys of `tags_map`: for XML the root's tag next to every path below
      the root, for JSON every key path. */
  function Tags(d: Document): (tags: set<string>)
    ensures DocPaths(d) <= tags
    ensures d.XmlDoc? ==> forall q :: q in tags <==> q == d.root.tag || Spelled(d, q)
    ensures d.JsonDoc? ==> forall q :: q in tags <==> Spelled(d, q)
  {
    DocPathsSpelled(d);
    match d
    case XmlDoc(root) => {root.tag} + DocPaths(d)
    case JsonDoc(_) => DocPaths(d)
  }

  /** The column for the current session: patterns from the text box, and as
      the multiselect's default the stored `include` if there is one, all
      options otherwise. The stored list is passed on unfiltered. */
  function Render(tagList: seq<string>, s: State): (v: View)
    ensures v.Shown? ==> v.patterns == ParsePatterns(s.wildcardInput)
    ensures s.chosen.None? ==> v.Shown? && v.selection == v.options
    ensures s.chosen.Some? ==>
              (v.Rejected? <==> !(Elems(s.chosen.value) <= Elems(OptionList(tagList, ParsePatterns(s.wildcardInput)))))
    ensures s.chosen.Some? && v.Shown? ==> v.selection == s.chosen.value
  {
    var patterns := ParsePatterns(s.wildcardInput);
    Show(tagList, patterns, s.chosen.GetOr(OptionList(tagList, patterns)))
  }

  /** Before anything is typed or loaded, every tag is selected and the
      download is the upload itself. */
  lemma BlankSessionKeepsDocument(d: Document, tagList: seq<string>)
    ensures Render(tagList, Blank()).Shown?
    ensures Render(tagList, Blank()).exclude == {}
    ensures Download(d, Render(tagList, Blank())) == Some(d)
  {
    NothingTypedNothingExcluded(tagList);
    PruneDocumentNothing(d);
  }

  /** Saving the filter and loading it back into the same document restores
      the same column. */
  lemma SavedFilterRestoresView(tagList: seq<string>, s: State)
    ensures var v := Render(tagList, s);
            v.Shown? ==> Render(tagList, LoadFilter(SaveFilter(v), tagList)) == v
  {
    var v := Render(tagList, s);
    if v.Shown? {
      var s' := LoadFilter(SaveFilter(v), tagList);
      assert ParsePatterns(s'.wildcardInput) == v.patterns;
    }
  }

  /** As written: a filter file without an `include` list makes the default
      the full tag list, so as soon as one of its wildcard entries matches a
      tag the multiselect is handed a default entry that is not an option, and
      the column is rejected. The entries may be written any way at all: they
      count as the patterns the text box parses out of them. */
  lemma LoadedFilterWithoutIncludeRejected(tagList: seq<string>, cfg: FilterFile)
    requires cfg.included.None?
    ensures var v := Render(tagList, LoadFilter(cfg, tagList));
            v.Rejected? <==> WildExcl(Elems(tagList), ParseEach(cfg.wildcards)) != {}
    ensures var v := Render(tagList, LoadFilter(cfg, tagList));
            v.Rejected? ==> v.stray == WildExcl(Elems(tagList), ParseEach(cfg.wildcards))
  {
    FullDefaultRejected(tagList, LoadFilter(cfg, tagList));
  }

  /** With the full tag list as the stored default, the column is rejected
      exactly when the wildcard matches a tag, naming the matched tags. */
  lemma FullDefaultRejected(tagList: seq<string>, s: State)
    requires s.chosen == Some(tagList)
    ensures var v := Render(tagList, s);
            var wild := WildExcl(Elems(tagList), ParsePatterns(s.wildcardInput));
            && (v.Rejected? <==> wild != {})
            && (v.Rejected? ==> v.stray == wild)
  {
    var patterns := ParsePatterns(s.wildcardInput);
    var wild := WildExcl(Elems(tagList), patterns);
    FullDefaultOptions(tagList, patterns);
    assert Render(tagList, s) == Show(tagList, patterns, tagList);
    assert Elems(tagList) <= Elems(OptionList(tagList, patterns)) <==> wild == {};
  }

  /** The options are the tags minus the wildcard matches, and the tags
      outside them are exactly those matches. */
  lemma FullDefaultOptions(tagList: seq<string>, patterns: seq<string>)
    ensures var wild := WildExcl(Elems(tagList), patterns);
            var opts := Elems(OptionList(tagList, patterns));
            && opts == Elems(tagList) - wild
            && Elems(tagList) - opts == wild
  {
  }

  /** Loading `{"wildcards": ["b"]}` for the sample document: `b` is matched
      by the wildcard, yet stays in the default taken from the tag list. */
  lemma SampleWildcardFilterRejected()
    ensures Render(["a", "b", "root"], LoadFilter(FilterFile(None, ["b"]), ["a", "b", "root"]))
            == Rejected({"b"})
  {
    var tagList := ["a", "b", "root"];
    var cfg := FilterFile(None, ["b"]);
    SampleMatch();
    SampleEntry();
    LoadedFilterWithoutIncludeRejected(tagList, cfg);
  }

  /** The wildcard `b` matches the tag `b` and nothing else in the sample. */
  lemma SampleMatch()
    ensures WildExcl(Elems(["a", "b", "root"]), ["b"]) == {"b"}
  {
    var tags := Elems(["a", "b", "root"]);
    assert Literal("b");
    LiteralPatternExcludesItself(tags, "b");
    assert "b" in tags;
    assert tags * {"b"} == {"b"};
  }

  /** Paths are taken below the root, and the root's tag is added: the
      sample's tags are `root`, `a` and `b`. */
  lemma SampleTags()
    ensures Tags(SampleDoc()) == {"root", "a", "b"}
  {
    SampleDocPaths();
  }

  /** Excluding `b` removes the second child of the sample. */
  lemma SamplePaths()
    ensures PruneDocument(SampleDoc(), {"b"}) ==
            XmlDoc(XmlTree.Elem("root", None, [XmlTree.Elem("a", Some("1"), [])]))
  {
    var root := SampleDoc().root;
    var a := root.children[0];
    var b := root.children[1];
    assert Join(["a"]) == "a" && Join(["b"]) == "b";
    assert XmlTree.PruneChildren([b], [], {"b"}) == [];
    assert XmlTree.Prune(a, ["a"], {"b"}) == a;
  }

  /** `root/b` names no path, since paths start below the root: excluding it
      removes nothing. */
  lemma SampleRootPathInert()
    ensures PruneDocument(SampleDoc(), {"root/b"}) == SampleDoc()
  {
    var root := SampleDoc().root;
    var a := root.children[0];
    var b := root.children[1];
    assert Join(["a"]) == "a" && Join(["b"]) == "b";
    assert "a" != "root/b" && "b" != "root/b";
    assert XmlTree.Prune(b, ["b"], {"root/b"}) == b;
    assert XmlTree.PruneChildren([b], [], {"root/b"}) == [b];
    assert XmlTree.Prune(a, ["a"], {"root/b"}) == a;
  }

  /** In `<a><a/></a>` the path `a` names the child, so the root's tag is not
      inert there: excluding `a` removes the child. */
  lemma SampleRootTagShared()
    ensures var d := XmlDoc(XmlTree.Elem("a", None, [XmlTree.Elem("a", None, [])]));
            && d.root.tag in DocPaths(d)
            && PruneDocument(d, {"a"}) == XmlDoc(XmlTree.Elem("a", None, []))
  {
    var child := XmlTree.Elem("a", None, []);
    var d := XmlDoc(XmlTree.Elem("a", None, [child]));
    assert Join(["a"]) == "a";
    assert ["a"][1..] == [] && d.root.children[0] == child;
    assert XmlTree.Occurs(child, []);
    assert XmlTree.Occurs(d.root, ["a"]);
    assert Extend("", "a") == "a";
    assert ChainPath("", ["a"]) == "a";
    DocPathsSpelled(d);
    assert Spelled(d, "a");
    assert XmlTree.PruneChildren([child], [], {"a"}) == [];
  }

  /** The root's tag is offered as an option, but `prune` never tests it:
      unless some path below the root happens to spell the same name,
      selecting or deselecting it leaves the download as it is. */
  lemma RootTagInert(d: Document, excl: set<string>)
    requires d.XmlDoc? && Parsed(d)
    requires d.root.tag !in DocPaths(d)
    ensures PruneDocument(d, excl + {d.root.tag}) == PruneDocument(d, excl - {d.root.tag})
  {
    assert Join([]) == "";
    XmlTree.PruneReadsOwnPaths(d.root, [], excl + {d.root.tag}, excl - {d.root.tag});
  }

  /** The download keeps only selected paths and none that a wildcard
      matched; it is the upload itself exactly when every path of the upload
      is selected; and the filtered hierarchy panel shows it faithfully. */
  lemma DownloadHonoursSelection(d: Document, tagList: seq<string>, s: State)
    requires Parsed(d) && Elems(tagList) == Tags(d)
    ensures var v := Render(tagList, s);
            v.Shown? ==>
              && Download(d, v).Some?
              && DocPaths(Download(d, v).value) <= Elems(v.selection)
              && DocPaths(Download(d, v).value) !! v.wild
              && (Download(d, v).value == d <==> DocPaths(d) <= Elems(v.selection))
              && FilteredHierarchy(d, Elems(v.selection)) == Hierarchy(Download(d, v).value)
  {
    var patterns := ParsePatterns(s.wildcardInput);
    DownloadHonoursView(d, tagList, patterns, s.chosen.GetOr(OptionList(tagList, patterns)));
  }
}

=== FILE: json.dfy ===
/** JSON values as `json.loads` builds them, the key paths `collect_keys`
    enumerates, the pruning of `prune_any`, and the filtered hierarchy view. */
module JsonTree {
  import opened Paths
  import opened Common

  datatype Json =
    | JNull
    | JBool(b: bool)
    | JNum(n: int)
    | JStr(s: string)
    | JArr(items: seq<Json>)
    | JObj(fields: seq<Field>)

  /** One `key: value` entry of a JSON object (a Python dict, in insertion order). */
  datatype Field = Field(key: string, value: Json)

  predicate DistinctKeys(fs: seq<Field>)
  {
    forall i, j :: 0 <= i < j < |fs| ==> fs[i].key != fs[j].key
  }

  /** Every object has distinct keys, as a Python dict does. */
  ghost predicate WellFormed(j: Json)
    decreases j
  {
    match j
    case JArr(items) => forall i :: 0 <= i < |items| ==> WellFormed(items[i])
    case JObj(fs) => DistinctKeys(fs) && forall i :: 0 <= i < |fs| ==> WellFormed(fs[i].value)
    case _ => true
  }

  /** The keys of `collect_keys(j, p)`: a dict entry contributes its own path and
      the paths below it, a list item is enumerated under the list's own path,
      and a scalar contributes nothing. */
  function KeyPaths(j: Json, p: string): set<string>
    decreases j
  {
    match j
    case JObj(fs) =>
      (set i | 0 <= i < |fs| :: Extend(p, fs[i].key))
      + (set i, q | 0 <= i < |fs| && q in KeyPaths(fs[i].value, Extend(p, fs[i].key)) :: q)
    case JArr(items) =>
      set i, q | 0 <= i < |items| && q in KeyPaths(items[i], p) :: q
    case _ => {}
  }

  /** The key chain `chain` leads from `j` to some value: every name is a key of
      an object met on the way down, and a list is entered without a name. */
  ghost predicate Occurs(j: Json, chain: seq<string>)
    decreases j
  {
    if chain == [] then true
    else match j
      case JObj(fs) =>
        exists i :: 0 <= i < |fs| && fs[i].key == chain[0] && Occurs(fs[i].value, chain[1..])
      case JArr(items) =>
        exists i :: 0 <= i < |items| && Occurs(items[i], chain)
      case _ => false
  }

  /** No step of `chain`, taken from `p`, lands on an excluded path. */
  ghost predicate Unblocked(p: string, chain: seq<string>, excl: set<string>)
    decreases |chain|
  {
    chain == [] || (Extend(p, chain[0]) !in excl && Unblocked(Extend(p, chain[0]), chain[1..], excl))
  }

  /** Whether `prune_any` deletes a dict entry met under the path `p`. */
  function FieldExcluded(p: string, excl: set<string>): Field -> bool
  {
    (f: Field) => Extend(p, f.key) in excl
  }

  /** `prune_any(j, p)` on a deep copy of `j` (also `calc_size`'s `pr`): drop
      every dict entry whose path is excluded, descend into the others with the
      extended path and into list items with the same path; scalars stay. */
  function Prune(j: Json, p: string, excl: set<string>): (r: Json)
    decreases j
    ensures r.JObj? <==> j.JObj?
    ensures j.JArr? ==> r.JArr? && |r.items| == |j.items|
    ensures !j.JObj? && !j.JArr? ==> r == j
  {
    match j
    case JObj(fs) => JObj(PruneFields(fs, p, excl))
    case JArr(items) => JArr(seq(|items|, i requires 0 <= i < |items| => Prune(items[i], p, excl)))
    case _ => j
  }

  /** The `for k in list(o.keys())` loop of `prune_any`. */
  function PruneFields(fs: seq<Field>, p: string, excl: set<string>): seq<Field>
    decreases fs
  {
    if fs == [] then []
    else
      var full := Extend(p, fs[0].key);
      if full in excl then PruneFields(fs[1..], p, excl)
      else [Field(fs[0].key, Prune(fs[0].value, full, excl))] + PruneFields(fs[1..], p, excl)
  }

  /** `prune_any` keeps exactly the entries whose path is not excluded, in their
      original order, each pruned below its own path. */
  lemma {:induction false} PruneFieldsKeeps(fs: seq<Field>, p: string, excl: set<string>)
    ensures var r := PruneFields(fs, p, excl);
            var k := Survivors(fs, FieldExcluded(p, excl));
            && |r| == |k|
            && forall m :: 0 <= m < |k| ==>
                 r[m] == Field(fs[k[m]].key, Prune(fs[k[m]].value, Extend(p, fs[k[m]].key), excl))
  {
    PruneFieldsAsKeepMap(fs, p, excl);
  }

  function PruneEntry(p: string, excl: set<string>): Field -> Field
  {
    (f: Field) => Field(f.key, Prune(f.value, Extend(p, f.key), excl))
  }

  lemma {:induction false} PruneFieldsAsKeepMap(fs: seq<Field>, p: string, excl: set<string>)
    ensures PruneFields(fs, p, excl) == KeepMap(fs, FieldExcluded(p, excl), PruneEntry(p, excl))
  {
    if fs != [] {
      PruneFieldsAsKeepMap(fs[1..], p, excl);
      assert FieldExcluded(p, excl)(fs[0]) == (Extend(p, fs[0].key) in excl);
    }
  }

  /** What survives `prune_any`: a key chain leads somewhere in the pruned copy
      exactly when it leads somewhere in the original and none of its steps
      lands on an excluded path. */
  lemma {:induction false} PruneOccurs(j: Json, p: string, excl: set<string>, chain: seq<string>)
    ensures Occurs(Prune(j, p, excl), chain) <==> Occurs(j, chain) && Unblocked(p, chain, excl)
    decreases j, 2
  {
    if chain == [] {
      return;
    }
    match j
    case JObj(fs) =>
      PruneOccursObj(j, p, excl, chain);
    case JArr(items) =>
      forall i | 0 <= i < |items|
        ensures Occurs(Prune(items[i], p, excl), chain) <==> Occurs(items[i], chain) && Unblocked(p, chain, excl)
      {
        PruneOccurs(items[i], p, excl, chain);
      }
      var pruned := Prune(j, p, excl).items;
      assert forall i :: 0 <= i < |items| ==> pruned[i] == Prune(items[i], p, excl);
    case _ =>
  }

  lemma {:induction false} PruneOccursObj(j: Json, p: string, excl: set<string>, chain: seq<string>)
    requires j.JObj? && chain != []
    ensures Occurs(Prune(j, p, excl), chain) <==> Occurs(j, chain) && Unblocked(p, chain, excl)
    decreases j, 1
  {
    if Occurs(Prune(j, p, excl), chain) {
      PruneOccursObjSound(j, p, excl, chain);
    }
    if Occurs(j, chain) && Unblocked(p, chain, excl) {
      PruneOccursObjComplete(j, p, excl, chain);
    }
  }

  lemma {:induction false} PruneOccursObjSound(j: Json, p: string, excl: set<string>, chain: seq<string>)
    requires j.JObj? && chain != [] && Occurs(Prune(j, p, excl), chain)
    ensures Occurs(j, chain) && Unblocked(p, chain, excl)
    decreases j, 0
  {
    var fs := j.fields;
    var r := PruneFields(fs, p, excl);
    var d := FieldExcluded(p, excl);
    var k := Survivors(fs, d);
    var rest := chain[1..];
    PruneFieldsKeeps(fs, p, excl);
    SurvivorsChoose(fs, d);
    assert Prune(j, p, excl) == JObj(r);
    var m :| 0 <= m < |r| && r[m].key == chain[0] && Occurs(r[m].value, rest);
    var i := k[m];
    assert 0 <= i < |fs| && i in k;
    assert r[m] == Field(fs[i].key, Prune(fs[i].value, Extend(p, chain[0]), excl));
    PruneOccurs(fs[i].value, Extend(p, chain[0]), excl, rest);
    assert !d(fs[i]);
    assert Occurs(j, chain);
  }

  lemma {:induction false} PruneOccursObjComplete(j: Json, p: string, excl: set<string>, chain: seq<string>)
    requires j.JObj? && chain != [] && Occurs(j, chain) && Unblocked(p, chain, excl)
    ensures Occurs(Prune(j, p, excl), chain)
    decreases j, 0
  {
    var fs := j.fields;
    var r := PruneFields(fs, p, excl);
    var d := FieldExcluded(p, excl);
    var rest := chain[1..];
    PruneFieldsKeeps(fs, p, excl);
    assert Prune(j, p, excl) == JObj(r);
    var i :| 0 <= i < |fs| && fs[i].key == chain[0] && Occurs(fs[i].value, rest);
    assert !d(fs[i]);
    var m := SurvivorIndex(fs, d, i);
    assert r[m] == Field(fs[i].key, Prune(fs[i].value, Extend(p, chain[0]), excl));
    PruneOccurs(fs[i].value, Extend(p, chain[0]), excl, rest);
    assert r[m].key == chain[0] && Occurs(r[m].value, rest);
  }

  lemma {:induction false} KeyPathsSound(j: Json, p: string, q: string)
    requires q in KeyPaths(j, p)
    ensures exists chain :: chain != [] && Occurs(j, chain) && ChainPath(p, chain) == q
    decreases j
  {
    match j
    case JObj(fs) =>
      var i := KeyPathsMember(j, p, q);
      var tail: seq<string> := [];
      if q != Extend(p, fs[i].key) {
        KeyPathsSound(fs[i].value, Extend(p, fs[i].key), q);
        tail :| tail != [] && Occurs(fs[i].value, tail) && ChainPath(Extend(p, fs[i].key), tail) == q;
      }
      OccursStep(j, p, i, tail);
    case JArr(items) =>
      var i :| 0 <= i < |items| && q in KeyPaths(items[i], p);
      KeyPathsSound(items[i], p, q);
      var chain :| chain != [] && Occurs(items[i], chain) && ChainPath(p, chain) == q;
      assert Occurs(j, chain);
  }

  /** A path below an object is an entry's own path or a path below that
      entry's value. */
  lemma KeyPathsMember(j: Json, p: string, q: string) returns (i: int)
    requires j.JObj? && q in KeyPaths(j, p)
    ensures 0 <= i < |j.fields|
    ensures q == Extend(p, j.fields[i].key) || q in KeyPaths(j.fields[i].value, Extend(p, j.fields[i].key))
  {
    var fs := j.fields;
    if k :| 0 <= k < |fs| && q == Extend(p, fs[k].key) {
      i := k;
    } else {
      i :| 0 <= i < |fs| && q in KeyPaths(fs[i].value, Extend(p, fs[i].key));
    }
  }

  /** A chain below an entry's value, prefixed with the entry's key, is a
      chain below the object, and it spells the path through the entry. */
  lemma OccursStep(j: Json, p: string, i: int, tail: seq<string>)
    requires j.JObj? && 0 <= i < |j.fields| && Occurs(j.fields[i].value, tail)
    ensures Occurs(j, [j.fields[i].key] + tail)
    ensures ChainPath(p, [j.fields[i].key] + tail) == ChainPath(Extend(p, j.fields[i].key), tail)
  {
    var chain := [j.fields[i].key] + tail;
    assert chain[0] == j.fields[i].key && chain[1..] == tail;
  }

  lemma {:induction false} KeyPathsComplete(j: Json, p: string, chain: seq<string>)
    requires chain != [] && Occurs(j, chain)
    ensures ChainPath(p, chain) in KeyPaths(j, p)
    decreases j
  {
    match j
    case JObj(fs) =>
      var i :| 0 <= i < |fs| && fs[i].key == chain[0] && Occurs(fs[i].value, chain[1..]);
      var full := Extend(p, fs[i].key);
      if chain[1..] == [] {
        assert ChainPath(p, chain) == full;
      } else {
        KeyPathsComplete(fs[i].value, full, chain[1..]);
      }
    case JArr(items) =>
      var i :| 0 <= i < |items| && Occurs(items[i], chain);
      KeyPathsComplete(items[i], p, chain);
  }

  /** `collect_keys` enumerates exactly the paths of the key chains that lead
      somewhere in the value. */
  lemma KeyPathsAreChainPaths(j: Json, p: string, q: string)
    ensures q in KeyPaths(j, p) <==> exists chain :: chain != [] && Occurs(j, chain) && ChainPath(p, chain) == q
  {
    if q in KeyPaths(j, p) {
      KeyPathsSound(j, p, q);
    }
    if exists chain :: chain != [] && Occurs(j, chain) && ChainPath(p, chain) == q {
      var chain :| chain != [] && Occurs(j, chain) && ChainPath(p, chain) == q;
      KeyPathsComplete(j, p, chain);
    }
  }

  lemma {:induction false} UnblockedAvoids(p: string, chain: seq<string>, excl: set<string>)
    requires chain != [] && Unblocked(p, chain, excl)
    ensures ChainPath(p, chain) !in excl
    decreases |chain|
  {
    if chain[1..] != [] {
      UnblockedAvoids(Extend(p, chain[0]), chain[1..], excl);
    }
  }

  /** The pruned copy enumerates only paths of the original, and none of them
      is excluded. */
  lemma PruneRemovesExcluded(j: Json, p: string, excl: set<string>)
    ensures KeyPaths(Prune(j, p, excl), p) <= KeyPaths(j, p)
    ensures KeyPaths(Prune(j, p, excl), p) !! excl
  {
    forall q | q in KeyPaths(Prune(j, p, excl), p)
      ensures q in KeyPaths(j, p) && q !in excl
    {
      KeyPathsSound(Prune(j, p, excl), p, q);
      var chain :| chain != [] && Occurs(Prune(j, p, excl), chain) && ChainPath(p, chain) == q;
      PruneOccurs(j, p, excl, chain);
      KeyPathsComplete(j, p, chain);
      UnblockedAvoids(p, chain, excl);
    }
  }

  /** Excluding nothing the value enumerates leaves it unchanged. */
  lemma {:induction false} PruneIdentity(j: Json, p: string, excl: set<string>)
    requires KeyPaths(j, p) !! excl
    ensures Prune(j, p, excl) == j
    decreases j
  {
    match j
    case JObj(fs) =>
      var d := FieldExcluded(p, excl);
      forall i | 0 <= i < |fs|
        ensures !d(fs[i]) && Prune(fs[i].value, Extend(p, fs[i].key), excl) == fs[i].value
      {
        assert Extend(p, fs[i].key) in KeyPaths(j, p);
        assert KeyPaths(fs[i].value, Extend(p, fs[i].key)) <= KeyPaths(j, p);
        PruneIdentity(fs[i].value, Extend(p, fs[i].key), excl);
      }
      NoneDropped(fs, d);
      PruneFieldsKeeps(fs, p, excl);
      assert PruneFields(fs, p, excl) == fs;
    case JArr(items) =>
      forall i | 0 <= i < |items|
        ensures Prune(items[i], p, excl) == items[i]
      {
        assert KeyPaths(items[i], p) <= KeyPaths(j, p);
        PruneIdentity(items[i], p, excl);
      }
      assert Prune(j, p, excl).items == items;
    case _ =>
  }

  /** `prune_any` leaves a value unchanged exactly when none of its paths is excluded. */
  lemma PruneUnchangedIff(j: Json, p: string, excl: set<string>)
    ensures Prune(j, p, excl) == j <==> KeyPaths(j, p) !! excl
  {
    if KeyPaths(j, p) !! excl {
      PruneIdentity(j, p, excl);
    }
    PruneRemovesExcluded(j, p, excl);
  }

  /** An empty exclusion set changes nothing. */
  lemma PruneNothing(j: Json, p: string)
    ensures Prune(j, p, {}) == j
  {
    PruneIdentity(j, p, {});
  }

  /** Pruning twice with the same exclusions is pruning once. */
  lemma PruneIdempotent(j: Json, p: string, excl: set<string>)
    ensures Prune(Prune(j, p, excl), p, excl) == Prune(j, p, excl)
  {
    PruneRemovesExcluded(j, p, excl);
    PruneIdentity(Prune(j, p, excl), p, excl);
  }

  /** A path survives pruning exactly when some key chain reaches it in the
      original without stepping on an excluded path. */
  lemma PrunedKeyPaths(j: Json, p: string, excl: set<string>, q: string)
    ensures q in KeyPaths(Prune(j, p, excl), p) <==>
            exists chain :: chain != [] && Occurs(j, chain) && Unblocked(p, chain, excl) && ChainPath(p, chain) == q
  {
    var pruned := Prune(j, p, excl);
    KeyPathsAreChainPaths(pruned, p, q);
    if q in KeyPaths(pruned, p) {
      var chain :| chain != [] && Occurs(pruned, chain) && ChainPath(p, chain) == q;
      PruneOccurs(j, p, excl, chain);
    }
    if exists chain :: chain != [] && Occurs(j, chain) && Unblocked(p, chain, excl) && ChainPath(p, chain) == q {
      var chain :| chain != [] && Occurs(j, chain) && Unblocked(p, chain, excl) && ChainPath(p, chain) == q;
      PruneOccurs(j, p, excl, chain);
    }
  }

  /** Pruning keeps every object's keys distinct. */
  lemma {:induction false} PruneWellFormed(j: Json, p: string, excl: set<string>)
    requires WellFormed(j)
    ensures WellFormed(Prune(j, p, excl))
    decreases j
  {
    match j
    case JObj(fs) =>
      var r := PruneFields(fs, p, excl);
      var k := Survivors(fs, FieldExcluded(p, excl));
      PruneFieldsKeeps(fs, p, excl);
      forall m | 0 <= m < |r|
        ensures WellFormed(r[m].value)
      {
        PruneWellFormed(fs[k[m]].value, Extend(p, fs[k[m]].key), excl);
      }
      assert DistinctKeys(r);
    case JArr(items) =>
      var r := Prune(j, p, excl).items;
      forall i | 0 <= i < |items|
        ensures WellFormed(r[i])
      {
        PruneWellFormed(items[i], p, excl);
      }
    case _ =>
  }

  /** Whether `json_to_dict_filtered` drops a dict entry met under the path `p`. */
  function FieldNotIncluded(p: string, incl: set<string>): Field -> bool
  {
    (f: Field) => Extend(p, f.key) !in incl
  }

  /** `json_to_dict_filtered(j, p)`: the "filtered hierarchy" view, which keeps a
      dict entry only when its path is among the included paths. */
  function Filtered(j: Json, p: string, incl: set<string>): Json
    decreases j
  {
    match j
    case JObj(fs) => JObj(FilteredFields(fs, p, incl))
    case JArr(items) => JArr(seq(|items|, i requires 0 <= i < |items| => Filtered(items[i], p, incl)))
    case _ => j
  }

  function FilteredFields(fs: seq<Field>, p: string, incl: set<string>): seq<Field>
    decreases fs
  {
    if fs == [] then []
    else
      var full := Extend(p, fs[0].key);
      if full in incl then [Field(fs[0].key, Filtered(fs[0].value, full, incl))] + FilteredFields(fs[1..], p, incl)
      else FilteredFields(fs[1..], p, incl)
  }

  lemma {:induction false} FilteredFieldsKeeps(fs: seq<Field>, p: string, incl: set<string>)
    ensures var r := FilteredFields(fs, p, incl);
            var k := Survivors(fs, FieldNotIncluded(p, incl));
            && |r| == |k|
            && forall m :: 0 <= m < |k| ==>
                 r[m] == Field(fs[k[m]].key, Filtered(fs[k[m]].value, Extend(p, fs[k[m]].key), incl))
  {
    FilteredFieldsAsKeepMap(fs, p, incl);
  }

  function FilteredEntry(p: string, incl: set<string>): Field -> Field
  {
    (f: Field) => Field(f.key, Filtered(f.value, Extend(p, f.key), incl))
  }

  lemma {:induction false} FilteredFieldsAsKeepMap(fs: seq<Field>, p: string, incl: set<string>)
    ensures FilteredFields(fs, p, incl) == KeepMap(fs, FieldNotIncluded(p, incl), FilteredEntry(p, incl))
  {
    if fs != [] {
      FilteredFieldsAsKeepMap(fs[1..], p, incl);
      assert FieldNotIncluded(p, incl)(fs[0]) == (Extend(p, fs[0].key) !in incl);
    }
  }

  /** The filtered hierarchy shows exactly the pruned value, whenever every
      path the value enumerates is included or excluded but not both. */
  lemma {:induction false} FilteredIsPruned(j: Json, p: string, incl: set<string>, excl: set<string>)
    requires forall q :: q in KeyPaths(j, p) ==> (q in incl <==> q !in excl)
    ensures Filtered(j, p, incl) == Prune(j, p, excl)
    decreases j
  {
    match j
    case JObj(fs) =>
      var dPrune := FieldExcluded(p, excl);
      var dView := FieldNotIncluded(p, incl);
      forall i | 0 <= i < |fs|
        ensures dPrune(fs[i]) == dView(fs[i])
        ensures Filtered(fs[i].value, Extend(p, fs[i].key), incl) == Prune(fs[i].value, Extend(p, fs[i].key), excl)
      {
        assert Extend(p, fs[i].key) in KeyPaths(j, p);
        assert KeyPaths(fs[i].value, Extend(p, fs[i].key)) <= KeyPaths(j, p);
        FilteredIsPruned(fs[i].value, Extend(p, fs[i].key), incl, excl);
      }
      SurvivorsAgree(fs, dPrune, dView);
      PruneFieldsKeeps(fs, p, excl);
      FilteredFieldsKeeps(fs, p, incl);
      assert FilteredFields(fs, p, incl) == PruneFields(fs, p, excl);
    case JArr(items) =>
      forall i | 0 <= i < |items|
        ensures Filtered(items[i], p, incl) == Prune(items[i], p, excl)
      {
        assert KeyPaths(items[i], p) <= KeyPaths(j, p);
        FilteredIsPruned(items[i], p, incl, excl);
      }
      assert Filtered(j, p, incl).items == Prune(j, p, excl).items;
    case _ =>
  }

  /** The document `{"a": {"x": 1, "y": 2}, "b": [{"x": 3}, {"x": 4}]}`. */
  function Sample(): Json
  {
    JObj([Field("a", JObj([Field("x", JNum(1)), Field("y", JNum(2))])),
          Field("b", JArr([JObj([Field("x", JNum(3))]), JObj([Field("x", JNum(4))])]))])
  }

  lemma SamplePaths()
    ensures Extend("", "a") == "a" && Extend("", "b") == "b"
    ensures Extend("a", "x") == "a/x" && Extend("a", "y") == "a/y" && Extend("b", "x") == "b/x"
  {
  }

  lemma SampleUnderA(e: set<string>, gone: bool)
    requires "a/x" !in e && ("a/y" in e <==> gone)
    ensures Prune(JObj([Field("x", JNum(1)), Field("y", JNum(2))]), "a", e) ==
            JObj(if gone then [Field("x", JNum(1))] else [Field("x", JNum(1)), Field("y", JNum(2))])
  {
    var fx1, fy2 := Field("x", JNum(1)), Field("y", JNum(2));
    assert [fx1, fy2][1..] == [fy2];
    SamplePaths();
    assert PruneFields([fy2], "a", e) == if gone then [] else [fy2];
  }

  lemma SampleUnderB(e: set<string>, gone: bool)
    requires "b/x" in e <==> gone
    ensures Prune(JArr([JObj([Field("x", JNum(3))]), JObj([Field("x", JNum(4))])]), "b", e) ==
            if gone then JArr([JObj([]), JObj([])])
            else JArr([JObj([Field("x", JNum(3))]), JObj([Field("x", JNum(4))])])
  {
    var fx3, fx4 := Field("x", JNum(3)), Field("x", JNum(4));
    SamplePaths();
    assert PruneFields([fx3], "b", e) == if gone then [] else [fx3];
    assert PruneFields([fx4], "b", e) == if gone then [] else [fx4];
  }

  /** Excluding `a/y` removes only `y` under `a`. */
  lemma SamplePrunedField()
    ensures Prune(Sample(), "", {"a/y"}) ==
            JObj([Field("a", JObj([Field("x", JNum(1))])),
                  Field("b", JArr([JObj([Field("x", JNum(3))]), JObj([Field("x", JNum(4))])]))])
  {
    var e: set<string> := {"a/y"};
    var fa := Sample().fields[0];
    var fb := Sample().fields[1];
    assert [fa, fb][1..] == [fb];
    SamplePaths();
    assert "a/y" in e && "a/x" !in e && "a" !in e && "b" !in e && "b/x" !in e;
    SampleUnderA(e, true);
    SampleUnderB(e, false);
    assert PruneFields([fb], "", e) == [fb];
  }

  /** Excluding `b/x` removes `x` from every element of the list `b`, since
      list items share its path. */
  lemma SamplePrunedList()
    ensures Prune(Sample(), "", {"b/x"}) ==
            JObj([Field("a", JObj([Field("x", JNum(1)), Field("y", JNum(2))])),
                  Field("b", JArr([JObj([]), JObj([])]))])
  {
    var e: set<string> := {"b/x"};
    var fa := Sample().fields[0];
    var fb := Sample().fields[1];
    assert [fa, fb][1..] == [fb];
    SamplePaths();
    assert "b/x" in e && "a/x" !in e && "a/y" !in e && "a" !in e && "b" !in e;
    SampleUnderA(e, false);
    SampleUnderB(e, true);
    assert PruneFields([fb], "", e) == [Field("b", JArr([JObj([]), JObj([])]))];
  }

  lemma {:induction false} UnblockedAntitone(p: string, chain: seq<string>, small: set<string>, large: set<string>)
    requires small <= large && Unblocked(p, chain, large)
    ensures Unblocked(p, chain, small)
    decreases |chain|
  {
    if chain != [] {
      UnblockedAntitone(Extend(p, chain[0]), chain[1..], small, large);
    }
  }

  /** Excluding more paths never leaves more paths in the pruned copy. */
  lemma PruneMonotone(j: Json, p: string, small: set<string>, large: set<string>)
    requires small <= large
    ensures KeyPaths(Prune(j, p, large), p) <= KeyPaths(Prune(j, p, small), p)
  {
    forall q | q in KeyPaths(Prune(j, p, large), p)
      ensures q in KeyPaths(Prune(j, p, small), p)
    {
      KeyPathsSound(Prune(j, p, large), p, q);
      var chain :| chain != [] && Occurs(Prune(j, p, large), chain) && ChainPath(p, chain) == q;
      PruneOccurs(j, p, large, chain);
      UnblockedAntitone(p, chain, small, large);
      PruneOccurs(j, p, small, chain);
      KeyPathsComplete(Prune(j, p, small), p, chain);
    }
  }
}

=== FILE: paths.dfy ===
/** Slash-joined paths, spelled the two ways the Ingest Optimizer builds them. */
module Paths {

  /** `f"{p}/{k}" if p else k`: the path of a child named `k` below the path `p`;
      the empty path stands for the top level. */
  function Extend(p: string, k: string): string
  {
    if p == "" then k else p + "/" + k
  }

  /** `'/'.join(names)`. */
  function Join(names: seq<string>): string
  {
    if |names| == 0 then ""
    else if |names| == 1 then names[0]
    else Join(names[..|names| - 1]) + "/" + names[|names| - 1]
  }

  /** The path reached from `p` by descending through the names of `chain`. */
  function ChainPath(p: string, chain: seq<string>): string
    decreases |chain|
  {
    if chain == [] then p else ChainPath(Extend(p, chain[0]), chain[1..])
  }

  predicate NoEmptyName(names: seq<string>)
  {
    forall i :: 0 <= i < |names| ==> names[i] != ""
  }

  /** A joined list of non-empty names is never the empty (top-level) path. */
  lemma {:induction false} JoinNonEmpty(names: seq<string>)
    requires NoEmptyName(names) && names != []
    ensures Join(names) != ""
  {
    if |names| > 1 {
      assert |Join(names)| >= |names[|names| - 1]|;
    }
  }

  /** The list spelling and the f-string spelling agree once every ancestor
      name is non-empty. */
  lemma JoinExtend(names: seq<string>, name: string)
    requires NoEmptyName(names)
    ensures Join(names + [name]) == Extend(Join(names), name)
  {
    var all := names + [name];
    assert all[..|all| - 1] == names;
    if names != [] {
      JoinNonEmpty(names);
    }
  }

  /** Moving the first name of `chain` onto `p` keeps both free of empty names. */
  lemma NoEmptyNameStep(p: seq<string>, chain: seq<string>)
    requires NoEmptyName(p) && NoEmptyName(chain) && chain != []
    ensures NoEmptyName(p + [chain[0]]) && NoEmptyName(chain[1..])
  {
    var q := p + [chain[0]];
    forall i | 0 <= i < |q|
      ensures q[i] != ""
    {
      if i < |p| { assert q[i] == p[i]; }
    }
    forall i | 0 <= i < |chain| - 1
      ensures chain[1..][i] != ""
    {
      assert chain[1..][i] == chain[i + 1];
    }
  }

  lemma ChainPathStep(p: seq<string>, chain: seq<string>)
    requires NoEmptyName(p) && chain != []
    ensures ChainPath(Join(p), chain) == ChainPath(Join(p + [chain[0]]), chain[1..])
  {
    JoinExtend(p, chain[0]);
  }

  lemma ConsAppend(p: seq<string>, chain: seq<string>)
    requires chain != []
    ensures (p + [chain[0]]) + chain[1..] == p + chain
  {
    assert chain == [chain[0]] + chain[1..];
  }

  /** Descending name by name with Extend gives the joined list of all names. */
  lemma {:induction false} ChainPathJoin(p: seq<string>, chain: seq<string>)
    requires NoEmptyName(p) && NoEmptyName(chain)
    ensures ChainPath(Join(p), chain) == Join(p + chain)
    decreases |chain|
  {
    if chain != [] {
      var q := p + [chain[0]];
      var rest := chain[1..];
      NoEmptyNameStep(p, chain);
      ChainPathStep(p, chain);
      ChainPathJoin(q, rest);
      ConsAppend(p, chain);
    } else {
      assert p + chain == p;
    }
  }
}

=== FILE: selection.dfy ===
/** The exclusion set: wildcard patterns typed by the user, the paths they
    select, the options left for the multiselect, and what ends up excluded. */
module Selection {
  import opened Glob
  import opened Common

  /** The code-point ranges Python's `str.isspace()` accepts: the Unicode
      white-space characters and the four ASCII separators U+001C..U+001F. */
  const SpaceRanges: seq<(char, char)> := [
    (' ', ' '), ('\t', '\r'), ('\U{1C}', '\U{1F}'), ('\U{85}', '\U{85}'),
    ('\U{A0}', '\U{A0}'), ('\U{1680}', '\U{1680}'), ('\U{2000}', '\U{200A}'),
    ('\U{2028}', '\U{2029}'), ('\U{202F}', '\U{202F}'), ('\U{205F}', '\U{205F}'),
    ('\U{3000}', '\U{3000}')]

  predicate InRanges(c: char, ranges: seq<(char, char)>)
  {
    ranges != [] && (ranges[0].0 <= c <= ranges[0].1 || InRanges(c, ranges[1..]))
  }

  /** `str.isspace()` for one character: what `str.strip()` removes. */
  predicate IsSpace(c: char)
  {
    InRanges(c, SpaceRanges)
  }

  lemma {:induction false} NotInRanges(c: char, ranges: seq<(char, char)>)
    requires forall i :: 0 <= i < |ranges| ==> !(ranges[i].0 <= c <= ranges[i].1)
    ensures !InRanges(c, ranges)
  {
    if ranges != [] {
      assert !(ranges[0].0 <= c <= ranges[0].1);
      NotInRanges(c, ranges[1..]);
    }
  }

  /** No visible ASCII character is white space. */
  lemma VisibleNotSpace(c: char)
    requires '!' <= c <= '~'
    ensures !IsSpace(c)
  {
    NotInRanges(c, SpaceRanges);
  }

  /** `s.lstrip()`. */
  function TrimLeft(s: string): (r: string)
    ensures |r| <= |s| && r == s[|s| - |r|..]
    ensures forall i :: 0 <= i < |s| - |r| ==> IsSpace(s[i])
  {
    if s != [] && IsSpace(s[0]) then
      var r := TrimLeft(s[1..]);
      DropFront(s, s[1..], r);
      r
    else s
  }

  /** `TrimLeft` stops at the first character that is not white space. */
  lemma {:induction false} TrimLeftStops(s: string)
    ensures TrimLeft(s) == [] || !IsSpace(TrimLeft(s)[0])
  {
    if s != [] && IsSpace(s[0]) {
      TrimLeftStops(s[1..]);
    }
  }

  /** What `TrimLeft` keeps of the tail it is a suffix of the whole, and the
      white space it drops from the tail is white space of the whole. */
  lemma DropFront(s: string, t: string, r: string)
    requires s != [] && IsSpace(s[0]) && t == s[1..]
    requires |r| <= |t| && r == t[|t| - |r|..]
    requires forall i :: 0 <= i < |t| - |r| ==> IsSpace(t[i])
    ensures r == s[|s| - |r|..]
    ensures forall i :: 0 <= i < |s| - |r| ==> IsSpace(s[i])
  {
    forall i | 0 < i < |s| - |r|
      ensures IsSpace(s[i])
    {
      assert s[i] == t[i - 1];
    }
  }

  /** `s.rstrip()`. */
  function TrimRight(s: string): (r: string)
    ensures |r| <= |s| && r == s[..|r|]
    ensures forall i :: |r| <= i < |s| ==> IsSpace(s[i])
    ensures r == [] || !IsSpace(r[|r| - 1])
  {
    if s != [] && IsSpace(s[|s| - 1]) then
      var r := TrimRight(s[..|s| - 1]);
      DropBack(s, s[..|s| - 1], r);
      r
    else s
  }

  lemma DropBack(s: string, t: string, r: string)
    requires s != [] && IsSpace(s[|s| - 1]) && t == s[..|s| - 1]
    requires |r| <= |t| && r == t[..|r|]
    requires forall i :: |r| <= i < |t| ==> IsSpace(t[i])
    ensures r == s[..|r|]
    ensures forall i :: |r| <= i < |s| ==> IsSpace(s[i])
  {
    forall i | |r| <= i < |t|
      ensures IsSpace(s[i])
    {
      assert s[i] == t[i];
    }
  }

  /** `r` is `s` with `a` white-space characters cut off the front and only
      white space cut off the back. */
  ghost predicate CutFrom(s: string, r: string, a: int)
  {
    && 0 <= a <= |s| - |r| && r == s[a..a + |r|]
    && (forall i :: 0 <= i < a ==> IsSpace(s[i]))
    && (forall i :: a + |r| <= i < |s| ==> IsSpace(s[i]))
  }

  /** `s.strip()`: a slice of `s` with only white space cut off either end,
      which neither starts nor ends with white space. */
  function Strip(s: string): (r: string)
    ensures exists a :: CutFrom(s, r, a)
    ensures r == [] || (!IsSpace(r[0]) && !IsSpace(r[|r| - 1]))
  {
    var l := TrimLeft(s);
    var r := TrimRight(l);
    TrimLeftStops(s);
    StripCut(s, l, r);
    r
  }

  /** Cutting white space off the front of `s` and then only white space off
      the back leaves a cut of `s` that neither starts nor ends with white
      space. */
  lemma StripCut(s: string, l: string, r: string)
    requires |l| <= |s| && l == s[|s| - |l|..]
    requires forall i :: 0 <= i < |s| - |l| ==> IsSpace(s[i])
    requires |r| <= |l| && r == l[..|r|]
    requires forall i :: |r| <= i < |l| ==> IsSpace(l[i])
    requires l == [] || !IsSpace(l[0])
    requires r == [] || !IsSpace(r[|r| - 1])
    ensures exists a :: CutFrom(s, r, a)
    ensures r == [] || (!IsSpace(r[0]) && !IsSpace(r[|r| - 1]))
  {
    var a := |s| - |l|;
    SliceOfSlice(s, l, r, a, a + |r|);
    TailSpaces(s, l, r, a);
    assert CutFrom(s, r, a);
    if r != [] {
      assert r[0] == l[0];
    }
  }

  lemma SliceOfSlice(s: string, l: string, r: string, a: int, b: int)
    requires 0 <= a <= |s| && l == s[a..] && |r| <= |l| && r == l[..|r|] && b == a + |r|
    ensures r == s[a..b]
  {
  }

  lemma TailSpaces(s: string, l: string, r: string, a: int)
    requires 0 <= a <= |s| && l == s[a..] && |r| <= |l|
    requires forall i :: |r| <= i < |l| ==> IsSpace(l[i])
    ensures forall i :: a + |r| <= i < |s| ==> IsSpace(s[i])
  {
    forall i | a + |r| <= i < |s|
      ensures IsSpace(s[i])
    {
      assert s[i] == l[i - a];
    }
  }

  lemma StripKeepsCharacters(s: string)
    ensures forall c :: c in Strip(s) ==> c in s
  {
    var r := Strip(s);
    var a :| CutFrom(s, r, a);
    SliceChars(s, a, a + |r|);
  }

  lemma SliceChars(s: string, a: int, b: int)
    requires 0 <= a <= b <= |s|
    ensures forall c :: c in s[a..b] ==> c in s
  {
    forall c | c in s[a..b]
      ensures c in s
    {
      var i :| a <= i < b && s[i] == c;
    }
  }

  /** `",".join(parts)`. */
  function JoinWith(parts: seq<string>): string
  {
    if |parts| == 0 then ""
    else if |parts| == 1 then parts[0]
    else parts[0] + "," + JoinWith(parts[1..])
  }

  /** `s.split(',')`: the comma-free pieces that `JoinWith` glues back into `s`. */
  function Split(s: string): (parts: seq<string>)
    ensures |parts| >= 1
    ensures forall i :: 0 <= i < |parts| ==> ',' !in parts[i]
    ensures JoinWith(parts) == s
  {
    if s == [] then [""]
    else
      var rest := Split(s[1..]);
      if s[0] == ',' then
        assert JoinWith([""] + rest) == "," + JoinWith(rest);
        [""] + rest
      else
        var parts := [[s[0]] + rest[0]] + rest[1..];
        assert parts[1..] == rest[1..];
        assert JoinWith(parts) == [s[0]] + JoinWith(rest);
        parts
  }

  /** A pattern as the wildcard field keeps it: non-empty, comma-free, and
      without white space at either end. */
  predicate IsPattern(p: string)
  {
    p != [] && ',' !in p && !IsSpace(p[0]) && !IsSpace(p[|p| - 1])
  }

  /** `[p.strip() for p in parts if p.strip()]`. */
  function KeepStripped(parts: seq<string>): (pats: seq<string>)
    ensures |pats| <= |parts|
  {
    if parts == [] then []
    else
      var p := Strip(parts[0]);
      (if p == [] then [] else [p]) + KeepStripped(parts[1..])
  }

  /** A comma-free piece strips to a clean pattern or to nothing. */
  lemma StripCommaFree(part: string)
    requires ',' !in part
    ensures Strip(part) == [] || IsPattern(Strip(part))
  {
    StripKeepsCharacters(part);
  }

  predicate AllPatterns(pats: seq<string>)
  {
    forall i :: 0 <= i < |pats| ==> IsPattern(pats[i])
  }

  lemma AllPatternsAppend(a: seq<string>, b: seq<string>)
    requires AllPatterns(a) && AllPatterns(b)
    ensures AllPatterns(a + b)
  {
    forall i | 0 <= i < |a + b|
      ensures IsPattern((a + b)[i])
    {
      if i < |a| {
        assert (a + b)[i] == a[i];
      } else {
        assert (a + b)[i] == b[i - |a|];
      }
    }
  }

  /** Stripping comma-free pieces leaves clean patterns only. */
  lemma {:induction false} KeepStrippedClean(parts: seq<string>)
    requires forall i :: 0 <= i < |parts| ==> ',' !in parts[i]
    ensures AllPatterns(KeepStripped(parts))
  {
    if parts != [] {
      var p := Strip(parts[0]);
      var head := if p == [] then [] else [p];
      var rest := KeepStripped(parts[1..]);
      assert KeepStripped(parts) == head + rest;
      KeepStrippedClean(parts[1..]);
      StripCommaFree(parts[0]);
      assert AllPatterns(head);
      AllPatternsAppend(head, rest);
    }
  }

  /** The wildcard field parsed into patterns. */
  function ParsePatterns(input: string): (pats: seq<string>)
    ensures forall i :: 0 <= i < |pats| ==> IsPattern(pats[i])
  {
    KeepStrippedClean(Split(input));
    KeepStripped(Split(input))
  }

  /** An empty field holds no pattern. */
  lemma ParseEmpty()
    ensures ParsePatterns("") == []
  {
    assert Split("") == [""];
    assert Strip("") == "";
  }

  lemma {:induction false} SplitNoComma(a: string)
    requires ',' !in a
    ensures Split(a) == [a]
  {
    if a != [] {
      SplitNoComma(a[1..]);
      assert [a[0]] + a[1..] == a;
    }
  }

  lemma {:induction false} SplitAfterComma(a: string, b: string)
    requires ',' !in a
    ensures Split(a + "," + b) == [a] + Split(b)
  {
    var s := a + "," + b;
    if a == [] {
      assert s[0] == ',' && s[1..] == b;
    } else {
      assert s[0] == a[0] && s[0] != ',';
      assert s[1..] == a[1..] + "," + b;
      SplitAfterComma(a[1..], b);
      var rest := Split(s[1..]);
      assert rest[0] == a[1..] && rest[1..] == Split(b);
      assert Split(s) == [[a[0]] + a[1..]] + Split(b);
      assert [a[0]] + a[1..] == a;
    }
  }

  /** Splitting a comma-joined list of comma-free pieces gives the pieces back. */
  lemma {:induction false} SplitJoin(parts: seq<string>)
    requires |parts| >= 1
    requires forall i :: 0 <= i < |parts| ==> ',' !in parts[i]
    ensures Split(JoinWith(parts)) == parts
  {
    if |parts| == 1 {
      SplitNoComma(parts[0]);
    } else {
      SplitJoin(parts[1..]);
      SplitAfterComma(parts[0], JoinWith(parts[1..]));
      assert [parts[0]] + parts[1..] == parts;
    }
  }

  lemma StripClean(p: string)
    requires IsPattern(p)
    ensures Strip(p) == p
  {
  }

  /** A saved filter's `wildcards` list, loaded back through the comma-joined
      text field, yields the same patterns. */
  lemma {:induction false} PatternsRoundTrip(pats: seq<string>)
    requires forall i :: 0 <= i < |pats| ==> IsPattern(pats[i])
    ensures ParsePatterns(JoinWith(pats)) == pats
  {
    if pats == [] {
      assert Split("") == [""];
      assert Strip("") == "";
    } else {
      SplitJoin(pats);
      KeepClean(pats);
    }
  }

  lemma {:induction false} KeepClean(pats: seq<string>)
    requires forall i :: 0 <= i < |pats| ==> IsPattern(pats[i])
    ensures KeepStripped(pats) == pats
  {
    if pats != [] {
      StripClean(pats[0]);
      KeepClean(pats[1..]);
      assert [pats[0]] + pats[1..] == pats;
    }
  }

  /** The patterns of each entry in turn: how a list of entries reads once
      they are comma-joined into the text field and parsed again. */
  function ParseEach(entries: seq<string>): seq<string>
  {
    if entries == [] then [] else ParsePatterns(entries[0]) + ParseEach(entries[1..])
  }

  /** Splitting at a comma splits the two sides independently. */
  lemma {:induction false} SplitAppend(a: string, b: string)
    ensures Split(a + "," + b) == Split(a) + Split(b)
  {
    var s := a + "," + b;
    if a == [] {
      assert s[0] == ',' && s[1..] == b;
    } else {
      SplitAppend(a[1..], b);
      SplitAppendStep(a, b);
    }
  }

  lemma {:induction false} SplitAppendStep(a: string, b: string)
    requires a != []
    requires Split(a[1..] + "," + b) == Split(a[1..]) + Split(b)
    ensures Split(a + "," + b) == Split(a) + Split(b)
  {
    var s := a + "," + b;
    assert s[0] == a[0] && s[1..] == a[1..] + "," + b;
    if a[0] == ',' {
      SplitComma(s);
      SplitComma(a);
      ConcatAssoc([""], Split(a[1..]), Split(b));
    } else {
      SplitChar(s);
      SplitChar(a);
      var ra := Split(a[1..]);
      HeadTailAppend(ra, Split(b));
      ConcatAssoc([[a[0]] + ra[0]], ra[1..], Split(b));
    }
  }

  lemma SplitComma(s: string)
    requires s != [] && s[0] == ','
    ensures Split(s) == [""] + Split(s[1..])
  {
  }

  lemma SplitChar(s: string)
    requires s != [] && s[0] != ','
    ensures Split(s) == [[s[0]] + Split(s[1..])[0]] + Split(s[1..])[1..]
  {
  }

  lemma HeadTailAppend<T>(x: seq<T>, y: seq<T>)
    requires x != []
    ensures (x + y)[0] == x[0] && (x + y)[1..] == x[1..] + y
  {
  }

  lemma {:induction false} KeepStrippedAppend(x: seq<string>, y: seq<string>)
    ensures KeepStripped(x + y) == KeepStripped(x) + KeepStripped(y)
  {
    if x == [] {
      assert x + y == y;
    } else {
      var xy := x + y;
      assert xy[0] == x[0] && xy[1..] == x[1..] + y;
      KeepStrippedCons(xy);
      KeepStrippedCons(x);
      KeepStrippedAppend(x[1..], y);
      ConcatAssoc(KeepStripped([x[0]]), KeepStripped(x[1..]), KeepStripped(y));
    }
  }

  lemma KeepStrippedCons(x: seq<string>)
    requires x != []
    ensures KeepStripped(x) == KeepStripped([x[0]]) + KeepStripped(x[1..])
  {
    var p := Strip(x[0]);
    var head := if p == [] then [] else [p];
    assert [x[0]][0] == x[0] && [x[0]][1..] == [];
    assert KeepStripped([x[0]]) == head + KeepStripped([]);
    assert head + [] == head;
  }

  lemma ConcatAssoc(a: seq<string>, b: seq<string>, c: seq<string>)
    ensures a + (b + c) == (a + b) + c
  {
  }

  /** Parsing two comma-joined fields gives the patterns of the first, then
      those of the second. */
  lemma ParseAppend(a: string, b: string)
    ensures ParsePatterns(a + "," + b) == ParsePatterns(a) + ParsePatterns(b)
  {
    SplitAppend(a, b);
    KeepStrippedAppend(Split(a), Split(b));
  }

  /** Whatever the entries hold (commas, white space, nothing at all), the
      comma-joined field parses to the patterns of each entry in turn. */
  lemma {:induction false} ParseJoin(entries: seq<string>)
    ensures ParsePatterns(JoinWith(entries)) == ParseEach(entries)
  {
    if entries == [] {
      ParseEmpty();
    } else if |entries| == 1 {
      assert entries[1..] == [];
      assert ParseEach(entries) == ParsePatterns(entries[0]) + [];
    } else {
      ParseAppend(entries[0], JoinWith(entries[1..]));
      ParseJoin(entries[1..]);
    }
  }

  /** The filter entry `b` reads as the one pattern `b`. */
  lemma SampleEntry()
    ensures ParseEach(["b"]) == ["b"]
  {
    VisibleNotSpace('b');
    assert IsPattern("b");
    PatternsRoundTrip(["b"]);
    assert JoinWith(["b"]) == "b";
    assert ParseEach(["b"]) == ParsePatterns("b") + ParseEach([]);
  }

  /** The untidy entry ` b` (a leading blank) reads as the pattern `b`. */
  lemma SampleUntidyEntry()
    ensures ParsePatterns(" b") == ["b"]
  {
    assert ',' !in " b";
    SplitNoComma(" b");
    VisibleNotSpace('b');
    assert IsSpace(' ');
    assert " b"[1..] == "b";
    assert TrimLeft("b") == "b";
    assert TrimLeft(" b") == "b";
    assert TrimRight("b") == "b";
    assert KeepStripped([" b"]) == ["b"] + KeepStripped([]);
  }

  /** `sorted({m for pat in patterns for m in fnmatch.filter(tags, pat)})`, as a set. */
  function WildExcl(tags: set<string>, pats: seq<string>): (wild: set<string>)
    ensures wild <= tags
    ensures pats == [] ==> wild == {}
    ensures forall t :: t in tags && "*" in pats ==> t in wild
  {
    assert forall t :: Matches("*", t) by {
      forall t { StarMatchesAll(t); }
    }
    set t | t in tags && exists i :: 0 <= i < |pats| && Matches(pats[i], t)
  }

  /** Extra patterns only ever exclude more. */
  lemma WildExclMonotone(tags: set<string>, pats: seq<string>, more: seq<string>)
    requires forall i :: 0 <= i < |pats| ==> pats[i] in more
    ensures WildExcl(tags, pats) <= WildExcl(tags, more)
  {
    forall t | t in WildExcl(tags, pats)
      ensures t in WildExcl(tags, more)
    {
      var i :| 0 <= i < |pats| && Matches(pats[i], t);
      var j :| 0 <= j < |more| && more[j] == pats[i];
    }
  }

  /** Patterns are alternatives: a list of patterns excludes what any one of them excludes. */
  lemma WildExclUnion(tags: set<string>, a: seq<string>, b: seq<string>)
    ensures WildExcl(tags, a + b) == WildExcl(tags, a) + WildExcl(tags, b)
  {
    forall t | t in WildExcl(tags, a + b)
      ensures t in WildExcl(tags, a) + WildExcl(tags, b)
    {
      var i :| 0 <= i < |a + b| && Matches((a + b)[i], t);
      if i >= |a| {
        assert (a + b)[i] == b[i - |a|];
      }
    }
    forall t | t in WildExcl(tags, a) + WildExcl(tags, b)
      ensures t in WildExcl(tags, a + b)
    {
      if t in WildExcl(tags, a) {
        var i :| 0 <= i < |a| && Matches(a[i], t);
        assert (a + b)[i] == a[i];
      } else {
        var i :| 0 <= i < |b| && Matches(b[i], t);
        assert (a + b)[|a| + i] == b[i];
      }
    }
  }

  /** A pattern without wildcards excludes the one path it names, if that path exists. */
  lemma LiteralPatternExcludesItself(tags: set<string>, pat: string)
    requires Literal(pat)
    ensures WildExcl(tags, [pat]) == tags * {pat}
  {
    forall t ensures t in WildExcl(tags, [pat]) <==> t in tags && t == pat {
      LiteralMatchesItself(pat, t);
      assert [pat][0] == pat;
    }
  }

  // The pattern "*/x" removes every x one level down and nothing else.
  lemma StarSlashExample()
    ensures WildExcl({"a/x", "b/x", "a/y"}, ["*/x"]) == {"a/x", "b/x"}
  {
    var rest := "/x";
    assert "*/x" == ['*'] + rest;
    assert Literal(rest);
    forall t | t in {"a/x", "b/x"} ensures t in WildExcl({"a/x", "b/x", "a/y"}, ["*/x"]) {
      StarSplits(rest, t);
      LiteralMatchesItself(rest, t[1..]);
      assert t[1..] == rest;
      assert ["*/x"][0] == "*/x";
    }
    var y := "a/y";
    StarSplits(rest, y);
    forall i | 0 <= i <= |y| ensures !Matches(rest, y[i..]) {
      LiteralMatchesItself(rest, y[i..]);
      assert y[i..] != rest by {
        if i == 0 { assert |y[i..]| == 3; }
        else if i == 1 { assert y[i..][1] == 'y'; }
        else { assert |y[i..]| < 2; }
      }
    }
    assert "a/y" !in WildExcl({"a/x", "b/x", "a/y"}, ["*/x"]);
  }

  /** `[t for t in tags if t not in wild_excl]`. */
  function Options(tags: set<string>, wild: set<string>): (opts: set<string>)
    ensures opts <= tags && opts !! wild
    ensures forall t :: t in tags ==> t in opts || t in wild
  {
    tags - wild
  }

  /** `[t for t in tags if t not in include or t in wild_excl]`. */
  function Exclude(tags: set<string>, selected: set<string>, wild: set<string>): (excl: set<string>)
    ensures excl <= tags
    ensures tags * wild <= excl
    ensures tags - selected <= excl
    ensures forall t :: t in selected && t !in wild ==> t !in excl
  {
    set t | t in tags && (t !in selected || t in wild)
  }

  /** Once `include` is picked from the options, the excluded paths are exactly
      the known paths not included: the two split the known paths between them. */
  lemma ExcludePartition(tags: set<string>, selected: set<string>, wild: set<string>)
    requires selected <= Options(tags, wild)
    ensures Exclude(tags, selected, wild) == tags - selected
    ensures selected !! Exclude(tags, selected, wild)
    ensures selected + Exclude(tags, selected, wild) == tags
  {
  }

  /** The entries of `xs` that lie in `allowed`, in their order: both
      `[t for t in tags if t not in wild_excl]` and
      `[t for t in default_sel if t in options]` have this shape. */
  function Restrict(xs: seq<string>, allowed: set<string>): (r: seq<string>)
    ensures |r| <= |xs|
    ensures forall t :: t in r <==> t in xs && t in allowed
  {
    if xs == [] then []
    else (if xs[0] in allowed then [xs[0]] else []) + Restrict(xs[1..], allowed)
  }

  lemma RestrictCons(x: string, xs: seq<string>, allowed: set<string>)
    ensures Restrict([x] + xs, allowed) == (if x in allowed then [x] else []) + Restrict(xs, allowed)
  {
    assert ([x] + xs)[0] == x && ([x] + xs)[1..] == xs;
  }

  /** Restricting to a set that already holds every entry changes nothing. */
  lemma {:induction false} RestrictKeepsAllowed(xs: seq<string>, allowed: set<string>)
    requires forall i :: 0 <= i < |xs| ==> xs[i] in allowed
    ensures Restrict(xs, allowed) == xs
  {
    if xs != [] {
      RestrictKeepsAllowed(xs[1..], allowed);
      assert [xs[0]] + xs[1..] == xs;
    }
  }

  /** Restriction keeps the relative order: it picks a subsequence. */
  lemma {:induction false} RestrictIsSubsequence(xs: seq<string>, allowed: set<string>)
    ensures Restrict(xs, allowed) == KeepMap(xs, (t: string) => t !in allowed, (t: string) => t)
  {
    if xs != [] {
      RestrictIsSubsequence(xs[1..], allowed);
    }
  }
}

=== FILE: session.dfy ===
/** The left column of the optimizer as both scripts build it: the filter
    file, the two session-state entries it fills, the tag multiselect and the
    exclusion list derived from it. The scripts differ only in which tags they
    collect and in how they form the multiselect's default; see `Ingest03` and
    `Ingest02`. */
module Session {
  import opened Common
  import opened Selection
  import opened Documents

  /** A `.filter.json` file: `{"include": [...], "wildcards": [...]}`, where
      either key may be missing (a missing `wildcards` reads as `[]`). */
  datatype FilterFile = FilterFile(included: Option<seq<string>>, wildcards: seq<string>)

  /** The session-state entries `wildcard_input` (the text box, `""` until
      something is typed or loaded) and `include` (absent until a filter is
      loaded or the multiselect has been rendered with that key). */
  datatype State = State(wildcardInput: string, chosen: Option<seq<string>>)

  /** What the left column shows: either the multiselect rejects its default
      (Streamlit raises when a default entry is not among the options, and the
      script stops there), or the selection and the exclusion list. */
  datatype View =
    | Rejected(stray: set<string>)
    | Shown(patterns: seq<string>, wild: set<string>, options: seq<string>,
            selection: seq<string>, exclude: set<string>)

  function Elems(xs: seq<string>): (s: set<string>)
    ensures forall t :: t in s <==> t in xs
  {
    set t | t in xs
  }

  /** A fresh session: nothing typed, nothing loaded. */
  function Blank(): (s: State)
    ensures s.chosen.None? && ParsePatterns(s.wildcardInput) == []
  {
    ParseEmpty();
    State("", None)
  }

  /** Loading a filter file: `include` gets the file's list, or the full tag
      list when the file has none, and the wildcard box gets the comma-joined
      entries, which parse back to the patterns of each entry in turn (to the
      entries themselves when they are clean patterns, as saved files hold). */
  function LoadFilter(cfg: FilterFile, tagList: seq<string>): (s: State)
    ensures s.chosen.Some?
    ensures cfg.included.Some? ==> s.chosen.value == cfg.included.value
    ensures cfg.included.None? ==> s.chosen.value == tagList
    ensures ParsePatterns(s.wildcardInput) == ParseEach(cfg.wildcards)
    ensures AllPatterns(cfg.wildcards) ==> ParsePatterns(s.wildcardInput) == cfg.wildcards
  {
    ParseJoin(cfg.wildcards);
    assert AllPatterns(cfg.wildcards) ==> ParsePatterns(JoinWith(cfg.wildcards)) == cfg.wildcards by {
      if AllPatterns(cfg.wildcards) {
        PatternsRoundTrip(cfg.wildcards);
      }
    }
    State(JoinWith(cfg.wildcards), Some(cfg.included.GetOr(tagList)))
  }

  /** `options`: the collected tags that no wildcard pattern matched, in
      the order of the tag list. */
  function OptionList(tagList: seq<string>, patterns: seq<string>): (opts: seq<string>)
    ensures forall t :: t in opts <==> t in tagList && t !in WildExcl(Elems(tagList), patterns)
  {
    Restrict(tagList, Options(Elems(tagList), WildExcl(Elems(tagList), patterns)))
  }

  /** The wildcard exclusion, `st.multiselect(options, initial)` showing its
      initial selection, and `exclude` below it. */
  function Show(tagList: seq<string>, patterns: seq<string>, initial: seq<string>): (v: View)
    ensures var opts := Elems(OptionList(tagList, patterns));
            && (v.Rejected? <==> !(Elems(initial) <= opts))
            && (v.Rejected? ==> v.stray != {} && v.stray == Elems(initial) - opts)
            && (v.Shown? ==>
                  && v.patterns == patterns && v.selection == initial
                  && v.options == OptionList(tagList, patterns)
                  && v.wild == WildExcl(Elems(tagList), patterns)
                  && v.wild <= Elems(tagList) && v.wild !! opts
                  && Elems(v.selection) !! v.exclude
                  && Elems(v.selection) + v.exclude == Elems(tagList)
                  && v.wild <= v.exclude)
  {
    var tags := Elems(tagList);
    var wild := WildExcl(tags, patterns);
    var opts := OptionList(tagList, patterns);
    if Elems(initial) <= Elems(opts) then
      ExcludePartition(tags, Elems(initial), wild);
      Shown(patterns, wild, opts, initial, Exclude(tags, Elems(initial), wild))
    else
      assert Elems(initial) - Elems(opts) != {} by {
        var t :| t in Elems(initial) && t !in Elems(opts);
        assert t in Elems(initial) - Elems(opts);
      }
      Rejected(Elems(initial) - Elems(opts))
  }

  /** With no pattern typed and every option as the initial selection,
      nothing is excluded. */
  lemma NothingTypedNothingExcluded(tagList: seq<string>)
    ensures Show(tagList, [], OptionList(tagList, [])).Shown?
    ensures Show(tagList, [], OptionList(tagList, [])).exclude == {}
  {
    var opts := OptionList(tagList, []);
    assert WildExcl(Elems(tagList), []) == {};
    assert Elems(opts) == Elems(tagList);
    var v := Show(tagList, [], opts);
    assert v.exclude <= Elems(tagList) - Elems(opts);
  }

  /** "Opslaan filter": a file that, loaded again, stores the current
      selection as `include` and puts back the current patterns (when they are
      clean, as parsed patterns are). */
  function SaveFilter(v: View): (cfg: FilterFile)
    requires v.Shown?
    ensures forall tagList :: LoadFilter(cfg, tagList).chosen == Some(v.selection)
    ensures AllPatterns(v.patterns) ==> ParsePatterns(JoinWith(cfg.wildcards)) == v.patterns
  {
    var cfg := FilterFile(Some(v.selection), v.patterns);
    assert AllPatterns(v.patterns) ==> ParsePatterns(JoinWith(cfg.wildcards)) == v.patterns by {
      if AllPatterns(v.patterns) {
        PatternsRoundTrip(v.patterns);
      }
    }
    cfg
  }

  /** The optimized download: the document pruned by `exclude`. */
  function Download(d: Document, v: View): (r: Option<Document>)
    ensures r.Some? <==> v.Shown?
    ensures r.Some? ==> r.value.XmlDoc? == d.XmlDoc?
  {
    if v.Shown? then Some(PruneDocument(d, v.exclude))
    else None
  }

  /** What a rendered column promises about the download: it keeps only
      selected paths, none that a wildcard matched, it is the untouched upload
      exactly when every path of the upload is selected, and the filtered
      hierarchy panel shows it faithfully. */
  lemma DownloadHonoursView(d: Document, tagList: seq<string>, patterns: seq<string>, initial: seq<string>)
    requires Parsed(d) && DocPaths(d) <= Elems(tagList)
    ensures var v := Show(tagList, patterns, initial);
            v.Shown? ==>
              var out := PruneDocument(d, v.exclude);
              && DocPaths(out) <= DocPaths(d) * Elems(v.selection)
              && DocPaths(out) !! v.wild
              && (out == d <==> DocPaths(d) <= Elems(v.selection))
              && FilteredHierarchy(d, Elems(v.selection)) == Hierarchy(out)
  {
    var v := Show(tagList, patterns, initial);
    if v.Shown? {
      PruneDocumentHides(d, v.exclude);
      PruneDocumentUnchangedIff(d, v.exclude);
      FilteredViewIsExportView(d, Elems(v.selection), v.exclude);
    }
  }
}

=== FILE: xml.dfy ===
/** ElementTree elements, the tag paths `collect_tags` enumerates, the pruning
    of `pr`/`prune`, and the two hierarchy views. */
module XmlTree {
  import opened Paths
  import opened Common
  import opened DictView
  import JsonTree

  /** An element as `ET.fromstring` builds it: its tag, its text (`None` when
      there is none) and its ordered child elements. */
  datatype Elem = Elem(tag: string, text: Option<string>, children: seq<Elem>)

  /** Every tag in the tree is non-empty, as it is in any parsed document. */
  ghost predicate TagsNonEmpty(e: Elem)
    decreases e
  {
    e.tag != "" && forall i :: 0 <= i < |e.children| ==> TagsNonEmpty(e.children[i])
  }

  /** The keys of `collect_tags(e, p)`: each child contributes its own path and
      the paths below it; `e` itself is not part of the result. */
  function TagPaths(e: Elem, p: string): set<string>
    decreases e
  {
    (set i | 0 <= i < |e.children| :: Extend(p, e.children[i].tag))
    + (set i, q | 0 <= i < |e.children| && q in TagPaths(e.children[i], Extend(p, e.children[i].tag)) :: q)
  }

  /** The tag chain `chain` leads from `e` down to some descendant (or to `e`
      itself when it is empty). */
  ghost predicate Occurs(e: Elem, chain: seq<string>)
    decreases e
  {
    chain == [] ||
    exists i :: 0 <= i < |e.children| && e.children[i].tag == chain[0] && Occurs(e.children[i], chain[1..])
  }

  /** No step of `chain`, taken below the tag list `p`, lands on an excluded
      path, the paths being joined as `'/'.join(p + [c.tag])`. */
  ghost predicate Unblocked(p: seq<string>, chain: seq<string>, excl: set<string>)
    decreases |chain|
  {
    chain == [] || (Join(p + [chain[0]]) !in excl && Unblocked(p + [chain[0]], chain[1..], excl))
  }

  /** Whether `pr`/`prune` removes a child of an element reached through `p`. */
  function ChildExcluded(p: seq<string>, excl: set<string>): Elem -> bool
  {
    (c: Elem) => Join(p + [c.tag]) in excl
  }

  /** `prune(e, p)` on a deep copy of `e` (also `calc_size`'s `pr`): remove
      every child whose joined tag path is excluded, with its subtree, and
      prune the others below their own path. The element itself stays. */
  function Prune(e: Elem, p: seq<string>, excl: set<string>): (r: Elem)
    decreases e
    ensures r.tag == e.tag && r.text == e.text
    ensures |r.children| <= |e.children|
  {
    Elem(e.tag, e.text, PruneChildren(e.children, p, excl))
  }

  /** The `for c in list(e)` loop of `prune`. */
  function PruneChildren(cs: seq<Elem>, p: seq<string>, excl: set<string>): (r: seq<Elem>)
    decreases cs
    ensures |r| <= |cs|
  {
    if cs == [] then []
    else
      var full := p + [cs[0].tag];
      if Join(full) in excl then PruneChildren(cs[1..], p, excl)
      else [Prune(cs[0], full, excl)] + PruneChildren(cs[1..], p, excl)
  }

  function PruneEntry(p: seq<string>, excl: set<string>): Elem -> Elem
  {
    (c: Elem) => Prune(c, p + [c.tag], excl)
  }

  lemma {:induction false} PruneChildrenAsKeepMap(cs: seq<Elem>, p: seq<string>, excl: set<string>)
    ensures PruneChildren(cs, p, excl) == KeepMap(cs, ChildExcluded(p, excl), PruneEntry(p, excl))
  {
    if cs != [] {
      PruneChildrenAsKeepMap(cs[1..], p, excl);
      assert ChildExcluded(p, excl)(cs[0]) == (Join(p + [cs[0].tag]) in excl);
    }
  }

  /** The children that survive are exactly those whose path is not excluded,
      in their original order, each pruned below its own path. */
  lemma PruneKeeps(e: Elem, p: seq<string>, excl: set<string>)
    ensures var r := Prune(e, p, excl).children;
            var k := Survivors(e.children, ChildExcluded(p, excl));
            && |r| == |k|
            && (forall m :: 0 <= m < |k| ==>
                  r[m] == Prune(e.children[k[m]], p + [e.children[k[m]].tag], excl))
            && (forall i :: 0 <= i < |e.children| ==>
                  (i in k <==> Join(p + [e.children[i].tag]) !in excl))
  {
    PruneChildrenAsKeepMap(e.children, p, excl);
    SurvivorsChoose(e.children, ChildExcluded(p, excl));
  }

  /** What survives `prune`: a tag chain leads somewhere in the pruned copy
      exactly when it leads somewhere in the original and none of its steps
      lands on an excluded path. */
  lemma {:induction false} PruneOccurs(e: Elem, p: seq<string>, excl: set<string>, chain: seq<string>)
    ensures Occurs(Prune(e, p, excl), chain) <==> Occurs(e, chain) && Unblocked(p, chain, excl)
    decreases e, 1
  {
    if chain != [] {
      if Occurs(Prune(e, p, excl), chain) {
        PruneOccursSound(e, p, excl, chain);
      }
      if Occurs(e, chain) && Unblocked(p, chain, excl) {
        PruneOccursComplete(e, p, excl, chain);
      }
    }
  }

  lemma {:induction false} PruneOccursSound(e: Elem, p: seq<string>, excl: set<string>, chain: seq<string>)
    requires chain != [] && Occurs(Prune(e, p, excl), chain)
    ensures Occurs(e, chain) && Unblocked(p, chain, excl)
    decreases e, 0
  {
    var cs := e.children;
    var r := Prune(e, p, excl).children;
    var k := Survivors(cs, ChildExcluded(p, excl));
    var rest := chain[1..];
    PruneKeeps(e, p, excl);
    var m :| 0 <= m < |r| && r[m].tag == chain[0] && Occurs(r[m], rest);
    var i := k[m];
    assert 0 <= i < |cs| && i in k;
    assert r[m] == Prune(cs[i], p + [chain[0]], excl);
    PruneOccurs(cs[i], p + [chain[0]], excl, rest);
    assert Occurs(e, chain);
  }

  lemma {:induction false} PruneOccursComplete(e: Elem, p: seq<string>, excl: set<string>, chain: seq<string>)
    requires chain != [] && Occurs(e, chain) && Unblocked(p, chain, excl)
    ensures Occurs(Prune(e, p, excl), chain)
    decreases e, 0
  {
    var cs := e.children;
    var r := Prune(e, p, excl).children;
    var k := Survivors(cs, ChildExcluded(p, excl));
    var rest := chain[1..];
    PruneKeeps(e, p, excl);
    var i :| 0 <= i < |cs| && cs[i].tag == chain[0] && Occurs(cs[i], rest);
    assert i in k;
    var m := SurvivorIndex(cs, ChildExcluded(p, excl), i);
    assert r[m] == Prune(cs[i], p + [chain[0]], excl);
    PruneOccurs(cs[i], p + [chain[0]], excl, rest);
    assert r[m].tag == chain[0] && Occurs(r[m], rest);
  }

  lemma {:induction false} TagPathsSound(e: Elem, p: string, q: string)
    requires q in TagPaths(e, p)
    ensures exists chain :: chain != [] && Occurs(e, chain) && ChainPath(p, chain) == q
    decreases e
  {
    var cs := e.children;
    var i := TagPathsMember(e, p, q);
    var tail: seq<string> := [];
    if q != Extend(p, cs[i].tag) {
      TagPathsSound(cs[i], Extend(p, cs[i].tag), q);
      tail :| tail != [] && Occurs(cs[i], tail) && ChainPath(Extend(p, cs[i].tag), tail) == q;
    }
    OccursStep(e, p, i, tail);
  }

  /** A path below `e` is a child's own path or a path below that child. */
  lemma TagPathsMember(e: Elem, p: string, q: string) returns (i: int)
    requires q in TagPaths(e, p)
    ensures 0 <= i < |e.children|
    ensures q == Extend(p, e.children[i].tag) || q in TagPaths(e.children[i], Extend(p, e.children[i].tag))
  {
    var cs := e.children;
    if j :| 0 <= j < |cs| && q == Extend(p, cs[j].tag) {
      i := j;
    } else {
      i :| 0 <= i < |cs| && q in TagPaths(cs[i], Extend(p, cs[i].tag));
    }
  }

  /** A chain below a child, prefixed with the child's tag, is a chain below
      the parent, and it spells the path through the child. */
  lemma OccursStep(e: Elem, p: string, i: int, tail: seq<string>)
    requires 0 <= i < |e.children| && Occurs(e.children[i], tail)
    ensures Occurs(e, [e.children[i].tag] + tail)
    ensures ChainPath(p, [e.children[i].tag] + tail) == ChainPath(Extend(p, e.children[i].tag), tail)
  {
    var chain := [e.children[i].tag] + tail;
    assert chain[0] == e.children[i].tag && chain[1..] == tail;
  }

  lemma {:induction false} TagPathsComplete(e: Elem, p: string, chain: seq<string>)
    requires chain != [] && Occurs(e, chain)
    ensures ChainPath(p, chain) in TagPaths(e, p)
    decreases e
  {
    var cs := e.children;
    var i :| 0 <= i < |cs| && cs[i].tag == chain[0] && Occurs(cs[i], chain[1..]);
    if chain[1..] != [] {
      TagPathsComplete(cs[i], Extend(p, cs[i].tag), chain[1..]);
    }
  }

  /** `collect_tags` enumerates exactly the paths of the tag chains that lead
      from the element to one of its descendants. */
  lemma TagPathsAreChainPaths(e: Elem, p: string, q: string)
    ensures q in TagPaths(e, p) <==> exists chain :: chain != [] && Occurs(e, chain) && ChainPath(p, chain) == q
  {
    if q in TagPaths(e, p) {
      TagPathsSound(e, p, q);
    }
    if exists chain :: chain != [] && Occurs(e, chain) && ChainPath(p, chain) == q {
      var chain :| chain != [] && Occurs(e, chain) && ChainPath(p, chain) == q;
      TagPathsComplete(e, p, chain);
    }
  }

  lemma {:induction false} OccursNamesNonEmpty(e: Elem, chain: seq<string>)
    requires TagsNonEmpty(e) && Occurs(e, chain)
    ensures NoEmptyName(chain)
    decreases e
  {
    if chain != [] {
      var i :| 0 <= i < |e.children| && e.children[i].tag == chain[0] && Occurs(e.children[i], chain[1..]);
      OccursNamesNonEmpty(e.children[i], chain[1..]);
    }
  }

  lemma {:induction false} UnblockedAvoids(p: seq<string>, chain: seq<string>, excl: set<string>)
    requires chain != [] && Unblocked(p, chain, excl)
    ensures Join(p + chain) !in excl
    decreases |chain|
  {
    assert p + chain == (p + [chain[0]]) + chain[1..];
    if chain[1..] != [] {
      UnblockedAvoids(p + [chain[0]], chain[1..], excl);
    } else {
      assert p + chain == p + [chain[0]];
    }
  }

  /** The pruned copy enumerates only paths of the original, and none of them
      is excluded: no surviving element below the root has an excluded path. */
  lemma PruneRemovesExcluded(e: Elem, p: seq<string>, excl: set<string>)
    requires TagsNonEmpty(e) && NoEmptyName(p)
    ensures TagPaths(Prune(e, p, excl), Join(p)) <= TagPaths(e, Join(p))
    ensures TagPaths(Prune(e, p, excl), Join(p)) !! excl
  {
    var pruned := Prune(e, p, excl);
    forall q | q in TagPaths(pruned, Join(p))
      ensures q in TagPaths(e, Join(p)) && q !in excl
    {
      TagPathsSound(pruned, Join(p), q);
      var chain :| chain != [] && Occurs(pruned, chain) && ChainPath(Join(p), chain) == q;
      PruneOccurs(e, p, excl, chain);
      TagPathsComplete(e, Join(p), chain);
      OccursNamesNonEmpty(e, chain);
      ChainPathJoin(p, chain);
      UnblockedAvoids(p, chain, excl);
    }
  }

  /** Excluding nothing the element enumerates leaves it unchanged. */
  lemma {:induction false} PruneIdentity(e: Elem, p: seq<string>, excl: set<string>)
    requires TagsNonEmpty(e) && NoEmptyName(p)
    requires TagPaths(e, Join(p)) !! excl
    ensures Prune(e, p, excl) == e
    decreases e
  {
    var cs := e.children;
    var d := ChildExcluded(p, excl);
    forall i | 0 <= i < |cs|
      ensures !d(cs[i]) && Prune(cs[i], p + [cs[i].tag], excl) == cs[i]
    {
      JoinExtend(p, cs[i].tag);
      assert Join(p + [cs[i].tag]) in TagPaths(e, Join(p));
      assert TagPaths(cs[i], Join(p + [cs[i].tag])) <= TagPaths(e, Join(p));
      PruneIdentity(cs[i], p + [cs[i].tag], excl);
    }
    NoneDropped(cs, d);
    PruneChildrenAsKeepMap(cs, p, excl);
    assert PruneChildren(cs, p, excl) == cs;
  }

  /** `prune` leaves an element unchanged exactly when none of its paths is excluded. */
  lemma PruneUnchangedIff(e: Elem, p: seq<string>, excl: set<string>)
    requires TagsNonEmpty(e) && NoEmptyName(p)
    ensures Prune(e, p, excl) == e <==> TagPaths(e, Join(p)) !! excl
  {
    if TagPaths(e, Join(p)) !! excl {
      PruneIdentity(e, p, excl);
    }
    PruneRemovesExcluded(e, p, excl);
  }

  /** An empty exclusion set changes nothing. */
  lemma {:induction false} PruneNothing(e: Elem, p: seq<string>)
    ensures Prune(e, p, {}) == e
    decreases e
  {
    var cs := e.children;
    forall i | 0 <= i < |cs|
      ensures Prune(cs[i], p + [cs[i].tag], {}) == cs[i]
    {
      PruneNothing(cs[i], p + [cs[i].tag]);
    }
    NoneDropped(cs, ChildExcluded(p, {}));
    PruneChildrenAsKeepMap(cs, p, {});
    assert PruneChildren(cs, p, {}) == cs;
  }

  /** Pruning twice with the same exclusions is pruning once. */
  lemma {:induction false} PruneIdempotent(e: Elem, p: seq<string>, excl: set<string>)
    ensures Prune(Prune(e, p, excl), p, excl) == Prune(e, p, excl)
    decreases e
  {
    var cs := e.children;
    var d := ChildExcluded(p, excl);
    var k := Survivors(cs, d);
    var r := Prune(e, p, excl).children;
    PruneKeeps(e, p, excl);
    forall m | 0 <= m < |r|
      ensures !d(r[m]) && Prune(r[m], p + [r[m].tag], excl) == r[m]
    {
      PruneIdempotent(cs[k[m]], p + [cs[k[m]].tag], excl);
    }
    NoneDropped(r, d);
    PruneChildrenAsKeepMap(r, p, excl);
    assert PruneChildren(r, p, excl) == r;
  }

  /** `elem.text or ""`. */
  function TextOr(text: Option<string>): string
  {
    text.GetOr("")
  }

  /** `xml_to_dict(e)`: a leaf becomes its text, any other element a dict from
      child tags to the children's views. */
  function ToDict(e: Elem): (r: JsonTree.Json)
    decreases e, 1
    ensures e.children == [] <==> r.JStr?
    ensures e.children == [] ==> r.s == (if e.text.Some? then e.text.value else "")
    ensures !r.JArr?
  {
    if e.children == [] then JsonTree.JStr(TextOr(e.text))
    else
      var pairs := ChildPairs(e.children);
      GroupFoldEmpty(pairs);
      JsonTree.JObj(GroupFold(pairs))
  }

  /** The (tag, view) pair of every child, in document order. */
  function ChildPairs(cs: seq<Elem>): (pairs: seq<JsonTree.Field>)
    decreases cs, 0
    ensures |pairs| == |cs|
    ensures forall i :: 0 <= i < |cs| ==> pairs[i].key == cs[i].tag
    ensures NoListValues(pairs)
  {
    seq(|cs|, i requires 0 <= i < |cs| => JsonTree.Field(cs[i].tag, ToDict(cs[i])))
  }

  lemma {:induction false} ChildPairsCons(c: Elem, rest: seq<Elem>)
    ensures ChildPairs([c] + rest) == [JsonTree.Field(c.tag, ToDict(c))] + ChildPairs(rest)
  {
    var cs := [c] + rest;
    var l := ChildPairs(cs);
    var r := [JsonTree.Field(c.tag, ToDict(c))] + ChildPairs(rest);
    forall i | 0 <= i < |l|
      ensures l[i] == r[i]
    {
      ChildPairAt(cs, i);
      if i > 0 {
        assert cs[i] == rest[i - 1];
        ChildPairAt(rest, i - 1);
      }
    }
  }

  lemma ChildPairAt(cs: seq<Elem>, i: int)
    requires 0 <= i < |cs|
    ensures ChildPairs(cs)[i] == JsonTree.Field(cs[i].tag, ToDict(cs[i]))
  {
  }

  /** The views of the children tagged `tag`, in document order. */
  function ViewsTagged(cs: seq<Elem>, tag: string): seq<JsonTree.Json>
  {
    ValuesOf(ChildPairs(cs), tag)
  }

  /** `xml_to_dict` groups the children by tag: one entry per distinct tag in
      order of first occurrence, holding the single child's view, or the list
      of all views of that tag in document order when the tag repeats. */
  lemma ToDictGroups(e: Elem)
    requires e.children != []
    ensures ToDict(e).JObj?
    ensures KeysOf(ToDict(e).fields) == FirstOccurrences(KeysOf(ChildPairs(e.children)))
    ensures forall m :: 0 <= m < |ToDict(e).fields| ==>
              var f := ToDict(e).fields[m];
              && |ViewsTagged(e.children, f.key)| >= 1
              && f.value == Group(ViewsTagged(e.children, f.key))
  {
    GroupFoldGroups(ChildPairs(e.children));
  }

  /** `xml_to_dict_filtered(e, path)`: like `xml_to_dict`, but only over the
      children whose path is included; with none of them the text is shown. */
  function ToDictFiltered(e: Elem, path: string, incl: set<string>): (r: JsonTree.Json)
    decreases e, 1
    ensures !r.JArr?
  {
    var res := GroupFold(FilteredPairs(e.children, path, incl));
    if res != [] then JsonTree.JObj(res) else JsonTree.JStr(TextOr(e.text))
  }

  /** The (tag, filtered view) pairs of the included children, in document order. */
  function FilteredPairs(cs: seq<Elem>, path: string, incl: set<string>): seq<JsonTree.Field>
    decreases cs, 0
  {
    if cs == [] then []
    else
      var full := Extend(path, cs[0].tag);
      (if full in incl then [JsonTree.Field(cs[0].tag, ToDictFiltered(cs[0], full, incl))] else [])
      + FilteredPairs(cs[1..], path, incl)
  }

  /** Every path in `paths` is included or excluded, never both. */
  ghost predicate Agree(paths: set<string>, incl: set<string>, excl: set<string>)
  {
    forall q :: q in paths ==> (q in incl <==> q !in excl)
  }

  /** The filtered hierarchy shows exactly the view of the pruned element,
      whenever every path below it is included or excluded but not both. */
  lemma {:induction false} FilteredIsPrunedView(e: Elem, p: seq<string>, incl: set<string>, excl: set<string>)
    requires TagsNonEmpty(e) && NoEmptyName(p)
    requires Agree(TagPaths(e, Join(p)), incl, excl)
    ensures ToDictFiltered(e, Join(p), incl) == ToDict(Prune(e, p, excl))
    decreases e, 1
  {
    var cs := e.children;
    forall i | 0 <= i < |cs|
      ensures Agree({Join(p + [cs[i].tag])} + TagPaths(cs[i], Join(p + [cs[i].tag])), incl, excl)
    {
      JoinExtend(p, cs[i].tag);
      assert Join(p + [cs[i].tag]) in TagPaths(e, Join(p));
      assert TagPaths(cs[i], Join(p + [cs[i].tag])) <= TagPaths(e, Join(p));
    }
    FilteredPairsArePruned(cs, p, incl, excl);
    var pruned := PruneChildren(cs, p, excl);
    GroupFoldEmpty(ChildPairs(pruned));
  }

  lemma {:induction false} FilteredPairsArePruned(cs: seq<Elem>, p: seq<string>, incl: set<string>, excl: set<string>)
    requires forall i :: 0 <= i < |cs| ==> TagsNonEmpty(cs[i])
    requires NoEmptyName(p)
    requires forall i :: 0 <= i < |cs| ==>
               Agree({Join(p + [cs[i].tag])} + TagPaths(cs[i], Join(p + [cs[i].tag])), incl, excl)
    ensures FilteredPairs(cs, Join(p), incl) == ChildPairs(PruneChildren(cs, p, excl))
    decreases cs, 0
  {
    if cs != [] {
      var c := cs[0];
      var full := p + [c.tag];
      JoinExtend(p, c.tag);
      assert NoEmptyName(full);
      FilteredPairsArePruned(cs[1..], p, incl, excl);
      var rest := PruneChildren(cs[1..], p, excl);
      assert Agree({Join(full)} + TagPaths(c, Join(full)), incl, excl);
      assert Join(full) in incl <==> Join(full) !in excl;
      if Join(full) !in excl {
        assert PruneChildren(cs, p, excl) == [Prune(c, full, excl)] + rest;
        assert Agree(TagPaths(c, Join(full)), incl, excl);
        FilteredIsPrunedView(c, full, incl, excl);
        ChildPairsCons(Prune(c, full, excl), rest);
      } else {
        assert PruneChildren(cs, p, excl) == rest;
      }
    }
  }

  lemma {:induction false} UnblockedAntitone(p: seq<string>, chain: seq<string>, small: set<string>, large: set<string>)
    requires small <= large && Unblocked(p, chain, large)
    ensures Unblocked(p, chain, small)
    decreases |chain|
  {
    if chain != [] {
      UnblockedAntitone(p + [chain[0]], chain[1..], small, large);
    }
  }

  /** Excluding more paths never leaves more paths in the pruned copy. */
  lemma PruneMonotone(e: Elem, p: seq<string>, small: set<string>, large: set<string>)
    requires small <= large
    ensures TagPaths(Prune(e, p, large), Join(p)) <= TagPaths(Prune(e, p, small), Join(p))
  {
    forall q | q in TagPaths(Prune(e, p, large), Join(p))
      ensures q in TagPaths(Prune(e, p, small), Join(p))
    {
      TagPathsSound(Prune(e, p, large), Join(p), q);
      var chain :| chain != [] && Occurs(Prune(e, p, large), chain) && ChainPath(Join(p), chain) == q;
      PruneOccurs(e, p, large, chain);
      UnblockedAntitone(p, chain, small, large);
      PruneOccurs(e, p, small, chain);
      TagPathsComplete(Prune(e, p, small), Join(p), chain);
    }
  }

  /** A path survives pruning exactly when some tag chain reaches it in the
      original without stepping on an excluded path. */
  lemma PrunedTagPaths(e: Elem, p: seq<string>, excl: set<string>, q: string)
    ensures q in TagPaths(Prune(e, p, excl), Join(p)) <==>
            exists chain :: chain != [] && Occurs(e, chain) && Unblocked(p, chain, excl) && ChainPath(Join(p), chain) == q
  {
    var pruned := Prune(e, p, excl);
    TagPathsAreChainPaths(pruned, Join(p), q);
    if q in TagPaths(pruned, Join(p)) {
      var chain :| chain != [] && Occurs(pruned, chain) && ChainPath(Join(p), chain) == q;
      PruneOccurs(e, p, excl, chain);
    }
    if exists chain :: chain != [] && Occurs(e, chain) && Unblocked(p, chain, excl) && ChainPath(Join(p), chain) == q {
      var chain :| chain != [] && Occurs(e, chain) && Unblocked(p, chain, excl) && ChainPath(Join(p), chain) == q;
      PruneOccurs(e, p, excl, chain);
    }
  }

  /** Pruning only removes elements, so a parsed tree stays one. */
  lemma {:induction false} PruneTagsNonEmpty(e: Elem, p: seq<string>, excl: set<string>)
    requires TagsNonEmpty(e)
    ensures TagsNonEmpty(Prune(e, p, excl))
    decreases e
  {
    var r := Prune(e, p, excl).children;
    var k := Survivors(e.children, ChildExcluded(p, excl));
    PruneKeeps(e, p, excl);
    forall m | 0 <= m < |r|
      ensures TagsNonEmpty(r[m])
    {
      var c := e.children[k[m]];
      PruneTagsNonEmpty(c, p + [c.tag], excl);
    }
  }

  /** `prune` only consults the exclusion list at the element's own paths:
      two lists that agree there give the same pruned copy. */
  lemma {:induction false} PruneReadsOwnPaths(e: Elem, p: seq<string>, a: set<string>, b: set<string>)
    requires TagsNonEmpty(e) && NoEmptyName(p)
    requires forall q :: q in TagPaths(e, Join(p)) ==> (q in a <==> q in b)
    ensures Prune(e, p, a) == Prune(e, p, b)
    decreases e, 1
  {
    var cs := e.children;
    forall i, q | 0 <= i < |cs| && q in {Join(p + [cs[i].tag])} + TagPaths(cs[i], Join(p + [cs[i].tag]))
      ensures q in a <==> q in b
    {
      JoinExtend(p, cs[i].tag);
      assert Join(p + [cs[i].tag]) in TagPaths(e, Join(p));
      assert TagPaths(cs[i], Join(p + [cs[i].tag])) <= TagPaths(e, Join(p));
    }
    PruneChildrenReadOwnPaths(cs, p, a, b);
  }

  lemma {:induction false} PruneChildrenReadOwnPaths(cs: seq<Elem>, p: seq<string>, a: set<string>, b: set<string>)
    requires forall i :: 0 <= i < |cs| ==> TagsNonEmpty(cs[i])
    requires NoEmptyName(p)
    requires forall i, q :: 0 <= i < |cs| && q in {Join(p + [cs[i].tag])} + TagPaths(cs[i], Join(p + [cs[i].tag])) ==>
               (q in a <==> q in b)
    ensures PruneChildren(cs, p, a) == PruneChildren(cs, p, b)
    decreases cs, 0
  {
    if cs != [] {
      var c := cs[0];
      var full := p + [c.tag];
      JoinExtend(p, c.tag);
      assert NoEmptyName(full);
      assert Join(full) in {Join(p + [cs[0].tag])} + TagPaths(cs[0], Join(p + [cs[0].tag]));
      PruneChildrenReadOwnPaths(cs[1..], p, a, b);
      if Join(full) !in a {
        PruneReadsOwnPaths(c, full, a, b);
      }
    }
  }
}
